=== FILE: README.md ===
# ping-monitor in Dafny

A model of the logic of ping-monitor, a desktop tool that pings a list of
servers, shows their latency on a live graph and saves the results. The
model covers:

- **Ping statistics** (`PingResult` in `src/ping_service.py`): mean, min,
  max and standard deviation of the latencies, and the one-line rendering
  used in batch results.
- **Reading the ping tool's output** (`ping_once`): the Unix expression
  `time=(\d+\.?\d*)\s*ms`, the Windows expression `time[=<](\d+)ms` and its
  `Average\s*=\s*(\d+)ms` fallback. Each is a matcher at one position plus
  the leftmost search `re.search` performs. The subprocess outcome is an
  input.
- **The probe loop** (`ping_continuous`) over an abstract sequence of probe
  outcomes, and address validation (`validate_ip`).
- **The server list** (`src/storage.py`): name-keyed `Server` equality, the
  dictionary round trip, the stable sort by lower-cased name, loading, the
  default configuration, adding, removing and sorting servers, and the name
  of the results file. Whether a save succeeded is an input.
- **Latency classification** (`Styles.get_status_color` in `src/styles.py`).
- **Graph data** (`GraphPanel` in `src/graph_panel.py`): the parallel lists
  of ping numbers and latencies, and what a redraw derives from them. That
  means the valid/failed partition, the line colour, the failed markers,
  the legend, the y-axis limit and the title.

Modules: `Options` (an option type), `Text` (character classes, ASCII
lower-casing, Python string order, digit strings, `.2f` formatting,
`strip`), `PingStats`, `PingParse`, `PingService`, `Servers`, `ServerSort`,
`Storage`, `Styles`, `GraphPanel`.

Modelling choices:

- Latencies are exact reals. `statistics.mean` is the exact sum over the
  count. The standard deviation for two or more samples is kept symbolic as
  the square root of the sample variance (`SqrtOf`).
- In the expressions, `\d` is the ASCII digits and `\s` is the whitespace
  set of Python's `str.isspace`. Ignoring case is ASCII case folding.
- A greedy piece of these expressions is always followed by a character it
  cannot consume. So backtracking never yields a different match, and taking
  each maximal run matches exactly the strings the `*Shape` predicates
  describe.
- `ping_once` catches only `TimeoutExpired`/`SubprocessError`. Any other
  exception (for example `OSError` when no ping tool is installed) reaches
  the caller. `Call.Raises` models this, and `validate_ip` passes it on.
- Where the code and its comments disagree, the model follows the code.
  A failed probe is stored on the graph as 0, as the code does; the comment
  at `src/graph_panel.py:111` says -1. `start_new_test` leaves
  `current_server` empty, because the `clear()` it calls overwrites the name
  assigned just before. The docstring of `load_servers`
  (`src/storage.py:66`) promises a list sorted by name, but the default list
  returned when the file is missing or unusable (lines 70 and 80) is not
  sorted; `Storage.DefaultServersNotSorted` proves this.
- `Graph.title` is the title last set by `clear` or `start_new_test`. It is
  not the title on the axes: per the finding below, the `ax.clear()` in
  `update_graph` erases that one at the first redraw, which the frame
  returned by `GraphPanel.UpdateGraphAsWritten` records.

## Model

| member | source | states |
|---|---|---|
| `PingStats.PingResult.Mean` | src/ping_service.py:20-23 | no mean exactly when no latency was recorded; otherwise mean × count equals the sum of the latencies |
| `PingStats.PingResult.Min` | src/ping_service.py:25-28 | no minimum exactly when the list is empty; otherwise a recorded latency no larger than any other |
| `PingStats.PingResult.Max` | src/ping_service.py:30-33 | no maximum exactly when the list is empty; otherwise a recorded latency no smaller than any other |
| `PingStats.PingResult.StdDev` | src/ping_service.py:35-38 | exactly 0.0 (not None) for fewer than two latencies, the empty list included; otherwise the square root of a non-negative sample variance, which times (n − 1) is the sum of squared deviations from the mean |
| `PingStats.PingResult.SuccessfulPings` | src/ping_service.py:18 | the count is 0 exactly when there is no mean, and exactly when there is neither a minimum nor a maximum; otherwise the mean times the count is the sum of the latencies; `PingContinuous` and `SuccessesPlusFailures` tie it to the probes that succeeded |
| `PingStats.PingResult.Render` | src/ping_service.py:40-44 | the text is `<name>: Failed` exactly when no latency was recorded; otherwise `<name>: <mean to two places>ms` |
| `PingStats.MeanWithinRange` | src/ping_service.py:20-33 | for a non-empty list, min ≤ mean ≤ max |
| `PingStats.SumBounds` | src/ping_service.py:23 | latencies between two bounds sum to between count × each bound |
| `PingStats.ConstantLatenciesHaveNoSpread` | src/ping_service.py:20-38 | two or more equal latencies have that value as mean and a zero variance |
| `PingStats.ThreeRepliesExample` | src/ping_service.py:20-44 | replies of 10, 12 and 11 ms give mean 11, min 10, max 12 and `A: 11.00ms` |
| `PingStats.AllFailedExample` | src/ping_service.py:40-44 | with no replies, mean, min and max are absent, the deviation is 0.0 and the text reports failure |
| `Text.FormatFixed2ReadsBack` | src/ping_service.py:43 | `.2f` of a non-negative value is a decimal literal with two places that reads back as the value rounded half-to-even to hundredths, hence within 0.005 of the value |
| `Text.FormatFixed2` | src/ping_service.py:43 | the text ends with a point and two digits, and starts with `-` exactly for a negative value; `FormatFixed2ReadsBack` fixes its value as the half-to-even rounding of `RoundHalfEven`, and `FormatFixed2Negative` reduces a negative value to its magnitude |
| `Text.FormatFixed2Negative` | src/ping_service.py:43 | a negative value renders as `-` followed by the rendering of its magnitude |
| `Text.RoundHalfEven` | src/ping_service.py:43 | the rounding `.2f` applies, taken on the exact value (Python takes it on the double's exact value): the nearest integer, and on a tie the even one |
| `Text.DecimalValue` | src/ping_service.py:92 | the value of a captured literal is never negative; `DecimalIntegerPart` and `FormatFixed2ReadsBack` relate it to the digits |
| `Text.DecimalIntegerPart` | src/ping_service.py:92 | the digits before the point are the integer part of the value: the part after the point adds less than 1 |
| `Text.DigitsRoundTrip` | src/ping_service.py:76 | writing a number in decimal and reading the digits back gives the number |
| `Text.Strip` | src/ping_service.py:144 | the result neither starts nor ends with whitespace; `StripEmptyIffBlank` says when it is empty |
| `Text.StripEmptyIffBlank` | src/ping_service.py:144 | `strip()` leaves nothing exactly when the string is empty or all whitespace |
| `PingParse.MatchUnixTimeAt` | src/ping_service.py:90 | a value only where the text starts with `time=`, never negative; `UnixTimeMatchIff` gives the exact condition |
| `PingParse.MatchWindowsTimeAt` | src/ping_service.py:74 | a value only where the text starts with `time` in any letter case, never negative; `WindowsTimeMatchIff` gives the exact condition |
| `PingParse.MatchWindowsAverageAt` | src/ping_service.py:78 | a value only where the text starts with `average` in any letter case, never negative; `WindowsAverageMatchIff` gives the exact condition |
| `PingParse.UnixTimeMatchIff` | src/ping_service.py:90 | the Unix expression matches at a position with value v exactly when the text there is `time=`, a decimal literal worth v, optional whitespace and `ms` |
| `PingParse.WindowsTimeMatchIff` | src/ping_service.py:74 | the Windows reply expression matches at a position with value v exactly when the text there is `time=` or `time<`, digits worth v and `ms`, in any letter case |
| `PingParse.WindowsAverageMatchIff` | src/ping_service.py:78 | the Windows summary expression matches at a position with value v exactly when the text there is `Average`, optional whitespace, `=`, optional whitespace, digits worth v and `ms`, in any letter case |
| `PingParse.Search` | src/ping_service.py:74-92 | the value of the leftmost position where the expression matches; nothing exactly when it matches nowhere |
| `PingParse.ParseUnix` | src/ping_service.py:89-92 | the value of the first `time=<decimal> ms` occurrence, or nothing if there is none |
| `PingParse.ParseWindows` | src/ping_service.py:73-80 | the first `time=N`/`time<N` reply value when any exists; otherwise the `Average` value; nothing exactly when neither expression matches anywhere |
| `PingParse.SubMillisecondReplyReadsAsOne` | src/ping_service.py:73-76 | `time<1ms` reads as 1 ms |
| `PingParse.UnixReplyExample` | src/ping_service.py:89-92 | `time=12.5 ms` reads as 12.5 ms |
| `PingService.PingOnce` | src/ping_service.py:63-97 | only subprocess errors are swallowed (giving None); other exceptions propagate; captured output is parsed with the platform's expressions; any latency is non-negative |
| `PingService.PingContinuous` | src/ping_service.py:118-131 | makes N probes for a duration N (none for N ≤ 0); keeps exactly the successful latencies in probe order; name and address pass through; the callback hears every probe as (outcome, k, N) for k = 1..N in order; the successful count plus the failed probes is N |
| `PingService.SuccessesAppend` | src/ping_service.py:121-125 | the kept latencies of consecutive runs of probes are the concatenation of each run's |
| `PingService.SuccessesMembers` | src/ping_service.py:124-125 | a latency is kept exactly when some probe returned it |
| `PingService.SuccessesCount` | src/ping_service.py:121-125 | the kept latencies are at most the probes, and exactly as many when no probe failed |
| `PingService.SuccessesPlusFailures` | src/ping_service.py:121-125 | every probe is either kept as a latency or counted as a failure, so the two add up to the probes |
| `PingService.OneFailureExample` | src/ping_service.py:121-131 | a failed middle probe leaves the other two latencies in order |
| `PingService.ValidateIp` | src/ping_service.py:144-149 | an empty or whitespace-only address is invalid without a probe; any other is valid exactly when one probe yields a latency, and a probe's exception propagates |
| `Servers.Equals` | src/storage.py:27-31 | a server equals another server exactly when their names match, and never equals a value of another type |
| `Servers.HashKey` | src/storage.py:33-35 | the hash key of a server is the name of every server equal to it, so it depends on the name alone; `EqualityByName` states that equal servers hash alike |
| `Servers.EqualityByName` | src/storage.py:27-35 | equality is reflexive, symmetric and transitive, ignores the address, and equal servers hash alike |
| `Servers.ToDict` | src/storage.py:18-20 | the object has exactly the keys `name` and `ip`, holding the server's fields |
| `Servers.FromDict` | src/storage.py:22-25 | a server exactly when both keys are present (a `KeyError` otherwise), taken from those keys |
| `Servers.DictRoundTrip` | src/storage.py:18-25 | reading back a written server gives the same name and address |
| `Servers.DictRoundTripBack` | src/storage.py:18-25 | writing back a read object gives the object less any extra keys |
| `Text.StrLeTotal` | src/storage.py:77 | Python's string order is total |
| `Text.StrLeTransitive` | src/storage.py:77 | Python's string order is transitive |
| `Text.StrLeAntisymmetric` | src/storage.py:77 | two strings ordered both ways are equal |
| `ServerSort.SortByName` | src/storage.py:159 | the result is ordered by lower-cased name, is a permutation of the input, and servers with the same key keep their input order |
| `ServerSort.SortIsUnique` | src/storage.py:77 | any ordering by lower-cased name that keeps equal keys in input order is the sorted result, so the sort is Python's stable `sorted` |
| `Storage.DefaultServers` | src/storage.py:200-206 | two servers with distinct names, so the default list already satisfies what `add_server` keeps true |
| `Storage.DefaultServersNotSorted` | src/storage.py:200-206 | the default list, Google DNS then Cloudflare DNS, is not in name order, and sorting it swaps the two |
| `Storage.FromDicts` | src/storage.py:75 | a list of servers exactly when every entry has both keys, one per entry in order |
| `Storage.LoadServers` | src/storage.py:61-80 | the default list for a missing, unreadable or incomplete file; an empty list when there is no `servers` entry; otherwise the entries stably sorted by lower-cased name |
| `Storage.AnyNamed` | src/storage.py:118 | the check for a duplicate holds exactly when some server has that exact name |
| `Storage.AddServer` | src/storage.py:117-129 | a duplicate name returns the list unchanged with the message naming it; otherwise, if the save succeeds, the list gains the new server at the end, and if it fails the list is unchanged with the save-failure message |
| `Storage.AddKeepsNamesUnique` | src/storage.py:117-129 | adding never creates a duplicate name, and the list grows by one exactly on success |
| `Storage.RemoveServer` | src/storage.py:142-147 | success is the save outcome; on success the list is the name filter `WithoutName` of the input (the other servers, in their original order and number), so no server keeps that name and every other server stays; on failure the list is unchanged |
| `Storage.WithoutName` | src/storage.py:142 | the filter never lengthens the list; `WithoutNameMembers`, `WithoutNameLength` and `WithoutNameAppend` state what it keeps |
| `Storage.WithoutNameMembers` | src/storage.py:142 | a server survives exactly when it was in the list and has another name |
| `Storage.WithoutNameLength` | src/storage.py:142 | the filter drops some server exactly when some server has that name |
| `Storage.WithoutNameAppend` | src/storage.py:142 | removal works server by server, so survivors keep their order |
| `Storage.WithoutAbsentName` | src/storage.py:142 | filtering out a name no server has leaves the list as it was |
| `Storage.RemoveAbsentName` | src/storage.py:142-147 | `remove_server` of a name no server has returns the list unchanged and reports success exactly when the save succeeds |
| `Storage.RemoveUndoesAdd` | src/storage.py:117-147 | a successful removal undoes a successful addition of the same name |
| `Storage.SortServers` | src/storage.py:149-161 | the list is returned sorted, stable and as a permutation, whatever the outcome of the save |
| `Storage.SortServersIdempotent` | src/storage.py:159-161 | sorting a sorted list changes nothing |
| `Storage.ResultsFilename` | src/storage.py:174-176 | the name is `ping_results_`, the timestamp (or the current time) and `.txt`, by length, prefix and suffix |
| `Storage.ResultsFilenameParts` | src/storage.py:174-176 | the results file name is `ping_results_`, then the given timestamp (or the current time), then `.txt`, and the timestamp can be read back from it |
| `Styles.StatusColor` | src/styles.py:191-210 | failed below 0; excellent on [0, 50); good on [50, 100); fair on [100, 200); poor from 200; each colour exactly on its interval |
| `Styles.StatusColorMonotone` | src/styles.py:201-210 | the function is total over the five colours, and a higher non-negative latency never gets a better grade |
| `Styles.StatusColorBoundaries` | src/styles.py:201-210 | each threshold belongs to the grade above it: 50 ms is good, 200 ms poor |
| `GraphPanel.Clear` | src/graph_panel.py:58-71 | both lists are empty, no server is current and the title is `No data` |
| `GraphPanel.StartNewTest` | src/graph_panel.py:80-94 | both lists are empty, `current_server` is empty, and the title names the server |
| `GraphPanel.StartNewTestForgets` | src/graph_panel.py:80-91 | a new test, and `clear`, forget all earlier data |
| `GraphPanel.Title` | src/graph_panel.py:94 | the title starts with the server name and, when there is an address, ends with it |
| `GraphPanel.TitleParts` | src/graph_panel.py:94 | the title is `<name>: <ip>` when there is an address, the name alone otherwise |
| `GraphPanel.Stored` | src/graph_panel.py:111-115 | a failed probe is stored as 0 and any other latency unchanged |
| `GraphPanel.AddDataPoint` | src/graph_panel.py:101-115 | exactly one ping number and one latency are appended, so parallel lists stay parallel, and nothing else changes |
| `GraphPanel.Points` | src/graph_panel.py:126 | pairs ping numbers with latencies position by position, stopping at the shorter list |
| `GraphPanel.Valid` | src/graph_panel.py:126 | the valid points are no more than the points and all have a positive latency; `ValidMembers` and `ValidAppend` say which points and in what order |
| `GraphPanel.FailedNumbers` | src/graph_panel.py:148 | there are no more failed markers than points; `FailedMembers` and `ValidAppend` say which numbers and in what order |
| `GraphPanel.ValidAppend` | src/graph_panel.py:126-148 | both filters work point by point, so filtered points and failed numbers keep the order of the data |
| `GraphPanel.ValidMembers` | src/graph_panel.py:126 | the valid points are exactly those with a positive latency |
| `GraphPanel.FailedMembers` | src/graph_panel.py:148 | the failed markers are exactly the ping numbers whose latency is 0 |
| `GraphPanel.ValidFailedPartition` | src/graph_panel.py:126-148 | with no negative latency, every point is either valid or failed, so a genuine 0 ms reading counts as failed |
| `GraphPanel.LineColor` | src/graph_panel.py:133-140 | never the failed colour, and for a non-negative average the status colour of that average |
| `GraphPanel.LineColorIsStatusColor` | src/graph_panel.py:131-140 | the line colour is the status colour of the average, never the failed colour |
| `GraphPanel.AverageOfPositives` | src/graph_panel.py:132 | the average of the valid latencies is between 0 and their maximum |
| `GraphPanel.LineOf` | src/graph_panel.py:128-145 | the line runs through the valid points in order, coloured by the status colour of their average |
| `GraphPanel.Padded` | src/graph_panel.py:173-175 | the y limit is 1.1 × a valid latency and at least 1.1 × every one |
| `GraphPanel.DrawnFrame` | src/graph_panel.py:125-175 | a line exactly when some point is valid; failed markers and a y limit only with a line; the legend exactly when some latency is 0 |
| `GraphPanel.AllFailedDrawsNothing` | src/graph_panel.py:128-170 | when every ping failed, nothing is plotted and no y limit is set; only the legend is requested |
| `GraphPanel.UpdateGraphAsWritten` | src/graph_panel.py:118-177 | no redraw without data; otherwise the frame drawn after `ax.clear()`, with an empty title |
| `GraphPanel.TitleLostAsWritten` | src/graph_panel.py:123-162 | after `start_new_test("A", "1.1.1.1")` and one reply, the redrawn frame has no title |
| `GraphPanel.UpdateGraph` | src/graph_panel.py:118-162 | no redraw without data; otherwise the frame drawn under the title of the current test |
| `GraphPanel.TitleKeptAfterPoints` | src/graph_panel.py:80-177 | however many points follow `start_new_test`, the redraw keeps its title |
| `GraphPanel.FeedAppends` | src/graph_panel.py:109-115 | feeding progress calls appends their numbers and stored latencies in order, and keeps server and title |
| `GraphPanel.FeedProbeLoop` | src/graph_panel.py:101-148 | after `start_new_test` for a server, the probe loop's progress calls keep that server's title and plot ping k+1 at probe k's latency, failed exactly when probe k failed or read 0 ms |
| `GraphPanel.FeedFromEmpty` | src/graph_panel.py:108-148 | the same for any graph without data |
| `GraphPanel.FeedPointsFromEmpty` | src/graph_panel.py:108-115 | the probe loop's progress calls fed into a graph without data leave the lists parallel and plot ping k+1 at probe k's stored latency |

## Left out

- Running the ping tool (`subprocess.run`, its arguments and timeouts) and `platform.system()`: foreign process I/O. Their outcomes are inputs (`ToolRun`, `Platform`), and only the parsing of the captured output is modelled.
- PingStats.PingResult.StdDev: for two or more latencies the square root is not computed. The result is the exact sample variance under `SqrtOf`, because real square roots are not expressible without floating point.
- PingStats.PingResult.Mean: exact real arithmetic. `statistics.mean` rounds once to the nearest double, and floating-point rounding is not modelled.
- PingParse.ParseUnix: the captured literal is read as an exact decimal. `float()` rounds it to the nearest double, and that rounding is not modelled. It can change what `PingResult.Render` prints: for `time=2.675 ms` Python's double is just below 2.675 and prints `2.67ms`, the model prints `2.68ms`.
- PingParse.ParseWindows: the digits are read as an exact integer. `float()` rounds integers above 2^53 to a double, which is not modelled; the rendering difference above can then arise the same way.
- PingService.PingContinuous: an exception raised by a probe or by the progress callback (either aborts the loop in the source) is not modelled. Each outcome is a latency or none.
- Unicode digits for `\d` (ASCII only), and the Unicode case-insensitive equivalents of `i` and `s`. Python's `re.IGNORECASE` also matches dotless i and capital dotted I against `i`, and long s against `s`, in `time`, `average` and `ms`.
- ServerSort.SortByName: `str.lower()` is modelled as ASCII lower-casing only. Non-ASCII letters keep their case.
- JSON reading and writing, `mkdir`, the `last_modified` timestamp and every file write. Whether `save_servers` succeeded is a boolean input.
- Storage.LoadServers: configuration values that are not strings, and a JSON root that is not an object, are not modelled.
- The body of the batch results file (header, separator lines, result lines) and the directory part of its path. Only the file name is modelled.
- `datetime.now()`: the current time is an input string.
- All matplotlib and Tk drawing calls (`ax.*`, `canvas.draw`), colours of markers, fonts and styles. Only the data a redraw uses is modelled.
- `src/main.py` (the Tk user interface, threads and dialogs), and the remaining style constants and dictionaries of `src/styles.py`.

## Findings

| source | as written | input that shows it | evidently intended | confidence | as-written member | corrected member |
|---|---|---|---|---|---|---|
| src/graph_panel.py:123 | `update_graph` calls `ax.clear()`, which also resets the axes title, and never sets the title again | `start_new_test("A", "1.1.1.1")`, then `add_data_point(1, 10.0)`: the redrawn graph has an empty title | the title set by `start_new_test` stays, as the comment at line 162 and `finalize_test` say | medium, not executed | `GraphPanel.TitleLostAsWritten` | `GraphPanel.TitleKeptAfterPoints` |

=== FILE: graph_panel.dfy ===
/** The data side of `GraphPanel` in src/graph_panel.py: the parallel lists
    of ping numbers and latencies, and what `update_graph` draws from them
    (the line of valid readings with its colour, the failed markers, the
    legend and the y-axis limit). The drawing itself is not modelled. */
module GraphPanel {
  import opened Options
  import opened PingStats
  import opened Styles
  import opened PingService

  datatype Graph = Graph(pingNumbers: seq<int>, latencies: seq<real>, currentServer: string, title: string)

  /** Both lists describe the same pings. */
  predicate Parallel(g: Graph) {
    |g.pingNumbers| == |g.latencies|
  }

  const NoDataTitle := "No data"

  /** `clear`: no data, no server, the placeholder title. */
  function Clear(g: Graph): (r: Graph)
    ensures r.pingNumbers == [] && r.latencies == [] && r.currentServer == ""
    ensures r.title == NoDataTitle
  {
    Graph([], [], "", NoDataTitle)
  }

  /** The title `start_new_test` sets: `name: ip`, or the name alone when
      the address is empty. */
  function Title(name: string, ip: string): (t: string)
    ensures |name| <= |t| && t[..|name|] == name
    ensures ip != "" ==> |ip| <= |t| && t[|t| - |ip|..] == ip
  {
    if ip != "" then name + ": " + ip else name
  }

  /** The title names the server first and ends with its address, when it
      has one. */
  lemma TitleParts(name: string, ip: string)
    ensures ip == "" ==> Title(name, ip) == name
    ensures ip != "" ==> var t := Title(name, ip);
              && |t| == |name| + 2 + |ip|
              && t[..|name|] == name
              && t[|name|..|name| + 2] == ": "
              && t[|name| + 2..] == ip
  {
  }

  /** `start_new_test`: the lists are emptied and the title names the
      server. The server name stored first is wiped by the `clear` that
      follows, so `current_server` ends up empty. */
  function StartNewTest(g: Graph, name: string, ip: string): (r: Graph)
    ensures r.pingNumbers == [] && r.latencies == [] && Parallel(r)
    ensures r.currentServer == ""
    ensures r.title == Title(name, ip)
  {
    var named := g.(currentServer := name, pingNumbers := [], latencies := []);
    Clear(named).(title := Title(name, ip))
  }

  /** Starting a test forgets everything about the previous one: the result
      depends only on the server. */
  lemma StartNewTestForgets(g: Graph, h: Graph, name: string, ip: string)
    ensures StartNewTest(g, name, ip) == StartNewTest(h, name, ip)
    ensures Clear(g) == Clear(h)
  {
  }

  /** The latency stored for a probe: a failed probe is stored as 0. */
  function Stored(latency: Option<real>): (v: real)
    ensures latency.None? ==> v == 0.0
    ensures latency.Some? ==> v == latency.value
  {
    latency.GetOr(0.0)
  }

  /** `add_data_point` (before it redraws): one ping number and one latency
      appended, nothing else changed. */
  function AddDataPoint(g: Graph, pingNumber: int, latency: Option<real>): (r: Graph)
    ensures r.pingNumbers == g.pingNumbers + [pingNumber]
    ensures r.latencies == g.latencies + [Stored(latency)]
    ensures Parallel(r) <==> Parallel(g)
    ensures r.currentServer == g.currentServer && r.title == g.title
  {
    g.(pingNumbers := g.pingNumbers + [pingNumber], latencies := g.latencies + [latency.GetOr(0.0)])
  }

  // ---------------------------------------------------------------------
  // update_graph
  // ---------------------------------------------------------------------

  /** `zip(ping_numbers, latencies)`, which stops at the shorter list. */
  function Points(g: Graph): (p: seq<(int, real)>)
    ensures |p| == if |g.pingNumbers| <= |g.latencies| then |g.pingNumbers| else |g.latencies|
    ensures forall k :: 0 <= k < |p| ==> p[k] == (g.pingNumbers[k], g.latencies[k])
  {
    var n := if |g.pingNumbers| <= |g.latencies| then |g.pingNumbers| else |g.latencies|;
    seq(n, k requires 0 <= k < n => (g.pingNumbers[k], g.latencies[k]))
  }

  /** The points with a positive latency, in order. */
  function Valid(p: seq<(int, real)>): (v: seq<(int, real)>)
    ensures |v| <= |p|
    ensures forall k :: 0 <= k < |v| ==> v[k].1 > 0.0
  {
    if |p| == 0 then []
    else (if p[0].1 > 0.0 then [p[0]] else []) + Valid(p[1..])
  }

  /** The ping numbers of the points whose latency is exactly 0, in order. */
  function FailedNumbers(p: seq<(int, real)>): (f: seq<int>)
    ensures |f| <= |p|
  {
    if |p| == 0 then []
    else (if p[0].1 == 0.0 then [p[0].0] else []) + FailedNumbers(p[1..])
  }

  lemma {:induction false} ValidMembers(p: seq<(int, real)>)
    ensures forall x :: x in Valid(p) <==> x in p && x.1 > 0.0
  {
    if |p| > 0 {
      ValidMembers(p[1..]);
      assert p == [p[0]] + p[1..];
    }
  }

  lemma {:induction false} FailedMembers(p: seq<(int, real)>)
    ensures forall n :: n in FailedNumbers(p) <==> (n, 0.0) in p
  {
    if |p| > 0 {
      FailedMembers(p[1..]);
      assert p == [p[0]] + p[1..];
    }
  }

  /** Both filters keep the order of the points: filtering a concatenation
      concatenates the filtered parts. */
  lemma {:induction false} ValidAppend(a: seq<(int, real)>, b: seq<(int, real)>)
    ensures Valid(a + b) == Valid(a) + Valid(b)
    ensures FailedNumbers(a + b) == FailedNumbers(a) + FailedNumbers(b)
  {
    if |a| == 0 {
      assert a + b == b;
    } else {
      assert (a + b)[0] == a[0] && (a + b)[1..] == a[1..] + b;
      ValidAppend(a[1..], b);
      var v := if a[0].1 > 0.0 then [a[0]] else [];
      var f := if a[0].1 == 0.0 then [a[0].0] else [];
      assert v + (Valid(a[1..]) + Valid(b)) == (v + Valid(a[1..])) + Valid(b);
      assert f + (FailedNumbers(a[1..]) + FailedNumbers(b)) == (f + FailedNumbers(a[1..])) + FailedNumbers(b);
    }
  }

  /** When no latency is negative, every point is either valid or failed:
      the two counts add up to the number of points. A genuine 0 ms reading
      is counted as failed. */
  lemma {:induction false} ValidFailedPartition(p: seq<(int, real)>)
    requires forall k :: 0 <= k < |p| ==> p[k].1 >= 0.0
    ensures |Valid(p)| + |FailedNumbers(p)| == |p|
  {
    if |p| > 0 {
      ValidFailedPartition(p[1..]);
    }
  }

  /** The line colour `update_graph` picks from an average latency: the
      thresholds of `get_status_color` without its failed case. */
  function LineColor(average: real): (c: string)
    ensures c != StatusFailed
    ensures average >= 0.0 ==> c == StatusColor(average)
  {
    if average < 50.0 then StatusExcellent
    else if average < 100.0 then StatusGood
    else if average < 200.0 then StatusFair
    else StatusPoor
  }

  /** For any average that can occur (never negative), the line colour is
      the status colour of that average. */
  lemma LineColorIsStatusColor(average: real)
    requires average >= 0.0
    ensures LineColor(average) == StatusColor(average)
    ensures LineColor(average) != StatusFailed
  {
  }

  /** The plotted line of the valid points. */
  datatype Line = Line(xs: seq<int>, ys: seq<real>, color: string)

  /** What `update_graph` leaves on the axes. */
  datatype Frame =
    | Unchanged
    | Drawn(title: string, line: Option<Line>, failedMarkers: seq<int>, legend: bool, yTop: Option<real>)

  /** The line through the valid points, coloured by their average. */
  function LineOf(valid: seq<(int, real)>): (l: Line)
    requires |valid| > 0
    requires forall i :: 0 <= i < |valid| ==> valid[i].1 > 0.0
    ensures |l.xs| == |l.ys| == |valid|
    ensures forall i :: 0 <= i < |l.xs| ==> (l.xs[i], l.ys[i]) == valid[i]
    ensures l.color == StatusColor(Sum(l.ys) / (|l.ys| as real))
  {
    var xs := seq(|valid|, i requires 0 <= i < |valid| => valid[i].0);
    var ys := seq(|valid|, i requires 0 <= i < |valid| => valid[i].1);
    var average := AverageOfPositives(ys, MaxOf(ys));
    LineColorIsStatusColor(average);
    Line(xs, ys, LineColor(average))
  }

  /** The frame of a graph with at least one ping number, drawn under the
      given title. */
  function DrawnFrame(g: Graph, title: string): (f: Frame)
    ensures f.Drawn? && f.title == title
    ensures f.line.Some? <==> exists x :: x in Points(g) && x.1 > 0.0
    ensures f.line.Some? ==> var l := f.line.value;
              && |l.xs| == |l.ys| == |Valid(Points(g))| > 0
              && (forall i :: 0 <= i < |l.xs| ==> (l.xs[i], l.ys[i]) == Valid(Points(g))[i])
              && l.color == StatusColor(Sum(l.ys) / (|l.ys| as real))
    ensures f.line.Some? ==> f.failedMarkers == FailedNumbers(Points(g))
    ensures f.line.None? ==> f.failedMarkers == [] && f.yTop.None?
    ensures f.line.Some? ==> f.yTop.Some?
    ensures f.line.Some? ==> var ys := f.line.value.ys;
              && (exists i :: 0 <= i < |ys| && f.yTop.value == 1.1 * ys[i])
              && (forall i :: 0 <= i < |ys| ==> 1.1 * ys[i] <= f.yTop.value)
    ensures f.legend <==> 0.0 in g.latencies
  {
    var valid := Valid(Points(g));
    ValidMembers(Points(g));
    var legend := 0.0 in g.latencies;
    if |valid| == 0 then
      Drawn(title, None, [], legend, None)
    else
      assert valid[0] in valid;
      var line := LineOf(valid);
      Drawn(title, Some(line), FailedNumbers(Points(g)), legend, Some(Padded(line.ys)))
  }

  /** The y-axis limit: the largest latency plus 10%. */
  function Padded(ys: seq<real>): (top: real)
    requires |ys| > 0
    ensures exists i :: 0 <= i < |ys| && top == 1.1 * ys[i]
    ensures forall i :: 0 <= i < |ys| ==> 1.1 * ys[i] <= top
  {
    MaxOf(ys) * 1.1
  }

  /** The average of positive latencies, which is not negative. */
  function AverageOfPositives(ys: seq<real>, top: real): (a: real)
    requires |ys| > 0
    requires forall i :: 0 <= i < |ys| ==> 0.0 < ys[i] <= top
    ensures a == Sum(ys) / (|ys| as real)
    ensures 0.0 <= a <= top
  {
    SumBounds(ys, 0.0, top);
    QuotientBounds(|ys| as real, 0.0, top, Sum(ys));
    Sum(ys) / (|ys| as real)
  }

  /** `update_graph` as written: nothing happens without data; otherwise
      the axes are cleared with `ax.clear()`, which also resets the title,
      and the title is not set again, so the frame has an empty title. */
  function UpdateGraphAsWritten(g: Graph): (f: Frame)
    ensures f.Unchanged? <==> g.pingNumbers == []
    ensures f.Drawn? ==> f == DrawnFrame(g, "")
  {
    if g.pingNumbers == [] then Unchanged else DrawnFrame(g, "")
  }

  /** `update_graph` as its comments intend: the title set by
      `start_new_test` stays above the redrawn data. */
  function UpdateGraph(g: Graph): (f: Frame)
    ensures f.Unchanged? <==> g.pingNumbers == []
    ensures f.Drawn? ==> f == DrawnFrame(g, g.title)
  {
    if g.pingNumbers == [] then Unchanged else DrawnFrame(g, g.title)
  }

  /** When every ping of a test failed, the redraw plots nothing: no line,
      no failed markers, no y-axis limit; only the legend is asked for. */
  lemma AllFailedDrawsNothing(g: Graph)
    requires Parallel(g) && |g.latencies| > 0
    requires forall k :: 0 <= k < |g.latencies| ==> g.latencies[k] == 0.0
    ensures var f := UpdateGraph(g);
            f.Drawn? && f.line.None? && f.failedMarkers == [] && f.yTop.None? && f.legend
  {
    assert g.latencies[0] in g.latencies;
    var p := Points(g);
    assert forall x :: x in p ==> x.1 == 0.0 by {
      forall x | x in p ensures x.1 == 0.0 {
        var k :| 0 <= k < |p| && p[k] == x;
      }
    }
  }

  /** The first reply of a new test erases the title as written. */
  lemma TitleLostAsWritten()
    ensures var g := AddDataPoint(StartNewTest(Graph([], [], "", NoDataTitle), "A", "1.1.1.1"), 1, Some(10.0));
            && g.title == "A: 1.1.1.1"
            && UpdateGraphAsWritten(g).Drawn?
            && UpdateGraphAsWritten(g).title == ""
  {
  }

  /** Corrected: however many points follow `start_new_test`, every redraw
      shows its title. */
  lemma {:induction false} TitleKeptAfterPoints(g: Graph, name: string, ip: string, calls: seq<Progress>)
    requires |calls| > 0
    ensures UpdateGraph(Feed(StartNewTest(g, name, ip), calls)).title == Title(name, ip)
  {
    FeedAppends(StartNewTest(g, name, ip), calls);
  }

  // ---------------------------------------------------------------------
  // Feeding the probe loop's progress calls into the graph
  // ---------------------------------------------------------------------

  /** `add_data_point(current, latency)` for each progress call in turn. */
  function Feed(g: Graph, calls: seq<Progress>): Graph {
    if |calls| == 0 then g
    else
      var last := calls[|calls| - 1];
      AddDataPoint(Feed(g, calls[..|calls| - 1]), last.current, last.latency)
  }

  lemma {:induction false} FeedAppends(g: Graph, calls: seq<Progress>)
    ensures var r := Feed(g, calls);
            && r.pingNumbers == g.pingNumbers + seq(|calls|, k requires 0 <= k < |calls| => calls[k].current)
            && r.latencies == g.latencies + seq(|calls|, k requires 0 <= k < |calls| => Stored(calls[k].latency))
            && r.currentServer == g.currentServer && r.title == g.title
  {
    if |calls| > 0 {
      FeedAppends(g, calls[..|calls| - 1]);
    }
  }

  /** Feeding the progress calls of a probe loop into a graph without data
      plots ping k+1 at the latency of probe k, and marks it failed exactly
      when the probe failed or read 0 ms. */
  lemma FeedFromEmpty(start: Graph, outcomes: seq<Option<real>>, durationSeconds: int, calls: seq<Progress>)
    requires start.pingNumbers == [] && start.latencies == []
    requires |calls| == |outcomes|
    requires forall k :: 0 <= k < |calls| ==> calls[k] == Progress(outcomes[k], k + 1, durationSeconds)
    ensures var r := Feed(start, calls);
            && Parallel(r)
            && Points(r) == seq(|outcomes|, k requires 0 <= k < |outcomes| => (k + 1, Stored(outcomes[k])))
            && forall k :: 0 <= k < |outcomes| ==>
                 ((k + 1) in FailedNumbers(Points(r)) <==> outcomes[k] == None || outcomes[k] == Some(0.0))
  {
    FeedPointsFromEmpty(start, outcomes, durationSeconds, calls);
    var p := Points(Feed(start, calls));
    FailedMembers(p);
    forall k | 0 <= k < |outcomes|
      ensures (k + 1) in FailedNumbers(p) <==> outcomes[k] == None || outcomes[k] == Some(0.0)
    {
      assert p[k] == (k + 1, Stored(outcomes[k]));
      if (k + 1, 0.0) in p {
        var j :| 0 <= j < |p| && p[j] == (k + 1, 0.0);
        assert p[j] == (j + 1, Stored(outcomes[j]));
      }
    }
  }

  /** The points of a probe loop fed into a graph without data. */
  lemma FeedPointsFromEmpty(start: Graph, outcomes: seq<Option<real>>, durationSeconds: int, calls: seq<Progress>)
    requires start.pingNumbers == [] && start.latencies == []
    requires |calls| == |outcomes|
    requires forall k :: 0 <= k < |calls| ==> calls[k] == Progress(outcomes[k], k + 1, durationSeconds)
    ensures Parallel(Feed(start, calls))
    ensures Points(Feed(start, calls)) == seq(|outcomes|, k requires 0 <= k < |outcomes| => (k + 1, Stored(outcomes[k])))
  {
    FeedAppends(start, calls);
  }

  /** The same for the test that `start_new_test` opens for any server. */
  lemma FeedProbeLoop(g: Graph, name: string, ip: string, outcomes: seq<Option<real>>, durationSeconds: int,
                      calls: seq<Progress>)
    requires |calls| == |outcomes|
    requires forall k :: 0 <= k < |calls| ==> calls[k] == Progress(outcomes[k], k + 1, durationSeconds)
    ensures var r := Feed(StartNewTest(g, name, ip), calls);
            && Parallel(r)
            && r.title == Title(name, ip)
            && Points(r) == seq(|outcomes|, k requires 0 <= k < |outcomes| => (k + 1, Stored(outcomes[k])))
            && forall k :: 0 <= k < |outcomes| ==>
                 ((k + 1) in FailedNumbers(Points(r)) <==> outcomes[k] == None || outcomes[k] == Some(0.0))
  {
    var start := StartNewTest(g, name, ip);
    FeedFromEmpty(start, outcomes, durationSeconds, calls);
    FeedAppends(start, calls);
  }
}

=== FILE: options.dfy ===
/** The optional value Python code expresses with `None`. */
module Options {

  /** `None` stands for Python's `None`; `Some(v)` for a present value `v`. */
  datatype Option<+T> = None | Some(value: T) {

    /** The present value, or `default` when there is none. */
    function GetOr(default: T): T {
      match this
      case Some(v) => v
      case None => default
    }
  }
}

=== FILE: ping_parse.dfy ===
/** How `ping_once` reads a latency out of the ping tool's standard output
    (src/ping_service.py): three regular expressions, each written here as a
    matcher at one position, and the leftmost-match search `re.search`
    performs. A `*Shape` predicate states, independently of the matcher, what
    a match of the expression looks like; the `*MatchIff` lemmas show the
    matcher finds a match at a position exactly when one exists there. */
module PingParse {
  import opened Options
  import opened Text

  /** The three expressions `ping_once` searches for. */
  datatype Pattern =
    | UnixTime       // time=(\d+\.?\d*)\s*ms
    | WindowsTime    // time[=<](\d+)ms, ignoring case
    | WindowsAverage // Average\s*=\s*(\d+)ms, ignoring case

  /** The value of the digit string `s[a..b]`. */
  function DigitsValueIn(s: string, a: nat, b: nat): nat
    requires AllDigitsIn(s, a, b)
  {
    assert AllDigits(s[a..b]);
    DigitsValue(s[a..b])
  }

  /** The group `\d+\.?\d*` spans `s[j..e]`: digits up to `d`, then either
      nothing more or a point and further digits. */
  lemma GroupIsDecimal(s: string, j: nat, d: nat, e: nat)
    requires j < d <= e <= |s| && AllDigitsIn(s, j, d)
    requires d == e || (s[d] == '.' && AllDigitsIn(s, d + 1, e))
    ensures IsDecimalLiteral(s[j..e])
  {
    var g := s[j..e];
    forall k, m | 0 <= k < m < |g| && g[k] == '.' ensures g[m] != '.' {
      assert j + k == d;
    }
  }

  // ---------------------------------------------------------------------
  // time=(\d+\.?\d*)\s*ms
  // ---------------------------------------------------------------------

  /** Where a greedy `\d+\.?\d*` starting at `j` ends: `j` itself when no
      digit stands there. */
  function DecimalRun(s: string, j: nat): (e: nat)
    requires j <= |s|
    ensures j <= e <= |s|
  {
    var d := j + DigitRun(s, j);
    if d == j then j
    else
      var p := if d < |s| && s[d] == '.' then d + 1 else d;
      p + DigitRun(s, p)
  }

  lemma DecimalRunIsDecimal(s: string, j: nat)
    requires j <= |s| && DecimalRun(s, j) > j
    ensures IsDecimalLiteral(s[j..DecimalRun(s, j)])
  {
    var d := j + DigitRun(s, j);
    var p := if d < |s| && s[d] == '.' then d + 1 else d;
    if p == d {
      DigitRunUnique(s, d, d);
    }
    GroupIsDecimal(s, j, d, DecimalRun(s, j));
  }

  /** A decimal literal followed by neither a digit nor a point is exactly
      what the greedy `\d+\.?\d*` takes. */
  lemma DecimalRunUnique(s: string, j: nat, e: nat)
    requires j <= e <= |s| && IsDecimalLiteral(s[j..e])
    requires e == |s| || (!IsDigit(s[e]) && s[e] != '.')
    ensures DecimalRun(s, j) == e
  {
    var g := s[j..e];
    var d := j + DigitRun(g, 0);
    assert AllDigitsIn(s, j, d) by {
      assert forall k :: j <= k < d ==> s[k] == g[k - j];
    }
    if d < e {
      assert s[d] == '.' by {
        assert s[d] == g[d - j];
      }
      assert AllDigitsIn(s, d + 1, e) by {
        assert forall k :: d + 1 <= k < e ==> s[k] == g[k - j] && g[k - j] != '.';
      }
      DecimalRunAfterDigits(s, j, d);
      DigitRunUnique(s, d + 1, e);
    } else {
      DecimalRunAfterDigits(s, j, e);
      DigitRunUnique(s, e, e);
    }
  }

  /** Once the leading digits `s[j..d]` are known, `DecimalRun` takes an
      optional point and the digits after it. */
  lemma DecimalRunAfterDigits(s: string, j: nat, d: nat)
    requires j < d <= |s| && AllDigitsIn(s, j, d) && (d == |s| || !IsDigit(s[d]))
    ensures var p := if d < |s| && s[d] == '.' then d + 1 else d;
            DecimalRun(s, j) == p + DigitRun(s, p)
  {
    DigitRunUnique(s, j, d);
  }

  /** The Unix expression tried at position `i`, consuming each piece
      greedily. */
  function MatchUnixTimeAt(s: string, i: nat): (r: Option<real>)
    ensures r.Some? ==> LiteralAt(s, i, "time=") && r.value >= 0.0
  {
    if !LiteralAt(s, i, "time=") then None
    else
      var e := DecimalRun(s, i + 5);
      if e == i + 5 then None else UnixAfterGroup(s, i + 5, e)
  }

  /** The rest of the Unix expression once the group `s[j..e]` is taken:
      optional whitespace, then `ms`. */
  function UnixAfterGroup(s: string, j: nat, e: nat): Option<real>
    requires j <= |s| && j < e == DecimalRun(s, j)
  {
    var f := e + SpaceRun(s, e);
    if LiteralAt(s, f, "ms") then
      DecimalRunIsDecimal(s, j);
      Some(DecimalValue(s[j..e]))
    else None
  }

  /** `s[i..f + 2]` is a match of the Unix expression whose group is
      `s[i + 5..e]`, followed by the whitespace `s[e..f]` and `ms`. */
  predicate UnixTimeShape(s: string, i: nat, e: nat, f: nat) {
    && LiteralAt(s, i, "time=")
    && i + 5 <= e
    && AllSpaceIn(s, e, f)
    && LiteralAt(s, f, "ms")
    && IsDecimalLiteral(s[i + 5..e])
  }

  lemma UnixTimeShapeFound(s: string, i: nat, e: nat, f: nat)
    requires UnixTimeShape(s, i, e, f)
    ensures MatchUnixTimeAt(s, i) == Some(DecimalValue(s[i + 5..e]))
  {
    UnixAfterGroupFound(s, i + 5, e, f);
    UnixGroupTaken(s, i, e);
  }

  /** Past `time=`, the matcher goes on with the group it took. */
  lemma UnixGroupTaken(s: string, i: nat, e: nat)
    requires LiteralAt(s, i, "time=") && i + 5 < e && DecimalRun(s, i + 5) == e
    ensures MatchUnixTimeAt(s, i) == UnixAfterGroup(s, i + 5, e)
  {
  }

  /** A decimal literal, whitespace and `ms` are read as the group the
      greedy matcher takes followed by the rest of the expression. */
  lemma UnixAfterGroupFound(s: string, j: nat, e: nat, f: nat)
    requires j <= e <= |s| && IsDecimalLiteral(s[j..e])
    requires AllSpaceIn(s, e, f) && LiteralAt(s, f, "ms")
    ensures j < e == DecimalRun(s, j)
    ensures UnixAfterGroup(s, j, e) == Some(DecimalValue(s[j..e]))
  {
    SpaceThenMs(s, e, f);
    DecimalRunUnique(s, j, e);
    SpaceRunUnique(s, e, f);
  }

  /** Whitespace followed by `ms` starts with neither a digit nor a point. */
  lemma SpaceThenMs(s: string, e: nat, f: nat)
    requires AllSpaceIn(s, e, f) && LiteralAt(s, f, "ms")
    ensures e < |s| && !IsDigit(s[e]) && s[e] != '.'
    ensures !IsSpace(s[f])
  {
    assert "ms"[0] == 'm';
    assert s[f] == 'm';
  }

  lemma UnixTimeMatchHasShape(s: string, i: nat) returns (e: nat, f: nat)
    requires MatchUnixTimeAt(s, i).Some?
    ensures UnixTimeShape(s, i, e, f) && MatchUnixTimeAt(s, i).value == DecimalValue(s[i + 5..e])
  {
    e := DecimalRun(s, i + 5);
    UnixGroupTaken(s, i, e);
    UnixAfterGroupHasShape(s, i + 5, e);
    f := e + SpaceRun(s, e);
  }

  lemma UnixAfterGroupHasShape(s: string, j: nat, e: nat)
    requires j <= |s| && j < e == DecimalRun(s, j) && UnixAfterGroup(s, j, e).Some?
    ensures var f := e + SpaceRun(s, e);
            && AllSpaceIn(s, e, f) && LiteralAt(s, f, "ms") && IsDecimalLiteral(s[j..e])
            && UnixAfterGroup(s, j, e) == Some(DecimalValue(s[j..e]))
  {
    DecimalRunIsDecimal(s, j);
  }

  /** The Unix expression matches at `i` with value `v` exactly when `s`
      holds `time=`, a decimal literal worth `v`, optional whitespace and
      `ms` there. */
  lemma UnixTimeMatchIff(s: string, i: nat, v: real)
    ensures MatchUnixTimeAt(s, i) == Some(v) <==>
              exists e: nat, f: nat :: UnixTimeShape(s, i, e, f) && v == DecimalValue(s[i + 5..e])
  {
    if MatchUnixTimeAt(s, i) == Some(v) {
      var e, f := UnixTimeMatchHasShape(s, i);
    }
    if exists e: nat, f: nat :: UnixTimeShape(s, i, e, f) && v == DecimalValue(s[i + 5..e]) {
      var e: nat, f: nat :| UnixTimeShape(s, i, e, f) && v == DecimalValue(s[i + 5..e]);
      UnixTimeShapeFound(s, i, e, f);
    }
  }

  // ---------------------------------------------------------------------
  // time[=<](\d+)ms, ignoring case
  // ---------------------------------------------------------------------

  function MatchWindowsTimeAt(s: string, i: nat): (r: Option<real>)
    ensures r.Some? ==> LiteralAtIgnoringCase(s, i, "time") && r.value >= 0.0
  {
    if !LiteralAtIgnoringCase(s, i, "time") || i + 4 >= |s| || (s[i + 4] != '=' && s[i + 4] != '<') then None
    else
      var j := i + 5;
      var e := j + DigitRun(s, j);
      if e > j && LiteralAtIgnoringCase(s, e, "ms") then Some(DigitsValueIn(s, j, e) as real) else None
  }

  /** `s[i..e + 2]` is a match of the Windows per-reply expression whose
      group is the digits `s[i + 5..e]`. */
  predicate WindowsTimeShape(s: string, i: nat, e: nat) {
    && LiteralAtIgnoringCase(s, i, "time")
    && i + 4 < |s| && (s[i + 4] == '=' || s[i + 4] == '<')
    && i + 5 < e
    && AllDigitsIn(s, i + 5, e)
    && LiteralAtIgnoringCase(s, e, "ms")
  }

  /** The Windows per-reply expression matches at `i` with value `v`
      exactly when `s` holds `time=` or `time<`, digits worth `v` and `ms`
      there, in any letter case. */
  lemma WindowsTimeMatchIff(s: string, i: nat, v: real)
    ensures MatchWindowsTimeAt(s, i) == Some(v) <==>
              exists e: nat :: WindowsTimeShape(s, i, e) && v == DigitsValueIn(s, i + 5, e) as real
  {
    if MatchWindowsTimeAt(s, i) == Some(v) {
      WindowsTimeMatchHasShape(s, i);
    }
    if exists e: nat :: WindowsTimeShape(s, i, e) && v == DigitsValueIn(s, i + 5, e) as real {
      var e: nat :| WindowsTimeShape(s, i, e) && v == DigitsValueIn(s, i + 5, e) as real;
      WindowsTimeShapeFound(s, i, e);
    }
  }

  lemma WindowsTimeMatchHasShape(s: string, i: nat)
    requires MatchWindowsTimeAt(s, i).Some?
    ensures var e := i + 5 + DigitRun(s, i + 5);
            && WindowsTimeShape(s, i, e)
            && MatchWindowsTimeAt(s, i).value == DigitsValueIn(s, i + 5, e) as real
  {
  }

  lemma WindowsTimeShapeFound(s: string, i: nat, e: nat)
    requires WindowsTimeShape(s, i, e)
    ensures MatchWindowsTimeAt(s, i) == Some(DigitsValueIn(s, i + 5, e) as real)
  {
    assert "ms"[0] == 'm';
    assert LowerChar(s[e]) == 'm';
    DigitRunUnique(s, i + 5, e);
  }

  // ---------------------------------------------------------------------
  // Average\s*=\s*(\d+)ms, ignoring case
  // ---------------------------------------------------------------------

  function MatchWindowsAverageAt(s: string, i: nat): (r: Option<real>)
    ensures r.Some? ==> LiteralAtIgnoringCase(s, i, "average") && r.value >= 0.0
  {
    if !LiteralAtIgnoringCase(s, i, "average") then None
    else AverageFromEquals(s, i + 7 + SpaceRun(s, i + 7))
  }

  /** The rest of the summary expression once `Average\s*` ends at `b`. */
  function AverageFromEquals(s: string, b: nat): Option<real>
    requires b <= |s|
  {
    if b >= |s| || s[b] != '=' then None
    else AverageFromDigits(s, b + 1 + SpaceRun(s, b + 1))
  }

  /** The rest of the summary expression once `=\s*` ends at `c`. */
  function AverageFromDigits(s: string, c: nat): Option<real>
    requires c <= |s|
  {
    var e := c + DigitRun(s, c);
    if e > c && LiteralAtIgnoringCase(s, e, "ms") then Some(DigitsValueIn(s, c, e) as real) else None
  }

  /** `s[i..e + 2]` is a match of the Windows summary expression: `Average`,
      whitespace up to the `=` at `b`, whitespace up to `c`, the digits
      `s[c..e]` and `ms`. */
  predicate WindowsAverageShape(s: string, i: nat, b: nat, c: nat, e: nat) {
    && LiteralAtIgnoringCase(s, i, "average")
    && AllSpaceIn(s, i + 7, b)
    && b < |s| && s[b] == '='
    && AllSpaceIn(s, b + 1, c)
    && c < e
    && AllDigitsIn(s, c, e)
    && LiteralAtIgnoringCase(s, e, "ms")
  }

  /** The Windows summary expression matches at `i` with value `v` exactly
      when `s` holds `Average = <digits worth v>ms` there, with any
      whitespace around the `=` and in any letter case. */
  lemma WindowsAverageMatchIff(s: string, i: nat, v: real)
    ensures MatchWindowsAverageAt(s, i) == Some(v) <==>
              exists b: nat, c: nat, e: nat :: WindowsAverageShape(s, i, b, c, e) && v == DigitsValueIn(s, c, e) as real
  {
    if MatchWindowsAverageAt(s, i) == Some(v) {
      WindowsAverageMatchHasShape(s, i);
    }
    if exists b: nat, c: nat, e: nat :: WindowsAverageShape(s, i, b, c, e) && v == DigitsValueIn(s, c, e) as real {
      var b: nat, c: nat, e: nat :| WindowsAverageShape(s, i, b, c, e) && v == DigitsValueIn(s, c, e) as real;
      WindowsAverageShapeFound(s, i, b, c, e);
    }
  }

  lemma WindowsAverageMatchHasShape(s: string, i: nat)
    requires MatchWindowsAverageAt(s, i).Some?
    ensures exists b: nat, c: nat, e: nat ::
              WindowsAverageShape(s, i, b, c, e) && MatchWindowsAverageAt(s, i).value == DigitsValueIn(s, c, e) as real
  {
    var b := i + 7 + SpaceRun(s, i + 7);
    var c := b + 1 + SpaceRun(s, b + 1);
    var e := c + DigitRun(s, c);
    assert MatchWindowsAverageAt(s, i) == AverageFromEquals(s, b);
    assert AverageFromEquals(s, b) == AverageFromDigits(s, c);
    AverageDigitsHaveShape(s, c);
    assert WindowsAverageShape(s, i, b, c, e);
  }

  lemma AverageDigitsHaveShape(s: string, c: nat)
    requires c <= |s| && AverageFromDigits(s, c).Some?
    ensures var e := c + DigitRun(s, c);
            && c < e && AllDigitsIn(s, c, e) && LiteralAtIgnoringCase(s, e, "ms")
            && AverageFromDigits(s, c) == Some(DigitsValueIn(s, c, e) as real)
  {
  }

  lemma WindowsAverageShapeFound(s: string, i: nat, b: nat, c: nat, e: nat)
    requires WindowsAverageShape(s, i, b, c, e)
    ensures MatchWindowsAverageAt(s, i) == Some(DigitsValueIn(s, c, e) as real)
  {
    AverageDigitsFound(s, c, e);
    AverageEqualsFound(s, b, c);
    assert i + 7 + SpaceRun(s, i + 7) == b by {
      SpaceRunUnique(s, i + 7, b);
    }
  }

  lemma AverageDigitsFound(s: string, c: nat, e: nat)
    requires c < e && AllDigitsIn(s, c, e) && LiteralAtIgnoringCase(s, e, "ms")
    ensures AverageFromDigits(s, c) == Some(DigitsValueIn(s, c, e) as real)
  {
    assert "ms"[0] == 'm';
    assert LowerChar(s[e]) == 'm';
    DigitRunUnique(s, c, e);
  }

  lemma AverageEqualsFound(s: string, b: nat, c: nat)
    requires b < |s| && s[b] == '=' && AllSpaceIn(s, b + 1, c)
    requires c < |s| && IsDigit(s[c])
    ensures AverageFromEquals(s, b) == AverageFromDigits(s, c)
  {
    SpaceRunUnique(s, b + 1, c);
  }

  // ---------------------------------------------------------------------
  // re.search
  // ---------------------------------------------------------------------

  /** The expression `p` tried at position `i` of `s`; every value it
      yields is a non-negative number of milliseconds. */
  function MatchAt(p: Pattern, s: string, i: nat): (r: Option<real>)
    ensures r.Some? ==> r.value >= 0.0
  {
    match p
    case UnixTime => MatchUnixTimeAt(s, i)
    case WindowsTime => MatchWindowsTimeAt(s, i)
    case WindowsAverage => MatchWindowsAverageAt(s, i)
  }

  /** The first present entry of `ms` at or after `from`. */
  function FirstFrom(ms: seq<Option<real>>, from: nat): (r: Option<real>)
    ensures r.Some? ==>
              exists i :: from <= i < |ms| && ms[i] == r && forall j :: from <= j < i ==> ms[j].None?
    ensures r.None? <==> forall i :: from <= i < |ms| ==> ms[i].None?
    decreases |ms| - from
  {
    if from >= |ms| then None
    else if ms[from].Some? then ms[from]
    else FirstFrom(ms, from + 1)
  }

  /** What `p` yields at each position of `s`. */
  function Matches(p: Pattern, s: string): (ms: seq<Option<real>>)
    ensures |ms| == |s|
    ensures forall i :: 0 <= i < |s| ==> ms[i] == MatchAt(p, s, i)
  {
    seq(|s|, i requires 0 <= i < |s| => MatchAt(p, s, i))
  }

  /** `re.search(p, s)`: the value of the match that starts leftmost, or
      nothing when the expression matches nowhere. */
  function Search(p: Pattern, s: string): (r: Option<real>)
    ensures r.Some? ==>
              exists i :: 0 <= i < |s| && MatchAt(p, s, i) == r
                          && forall j :: 0 <= j < i ==> MatchAt(p, s, j).None?
    ensures r.None? <==> forall i :: 0 <= i < |s| ==> MatchAt(p, s, i).None?
  {
    var ms := Matches(p, s);
    var r := FirstFrom(ms, 0);
    if r.Some? then
      var i :| 0 <= i < |ms| && ms[i] == r && forall j :: 0 <= j < i ==> ms[j].None?;
      assert MatchAt(p, s, i) == r && forall j :: 0 <= j < i ==> MatchAt(p, s, j).None?;
      r
    else r
  }

  /** The Unix branch of `ping_once`: the value of the first
      `time=<decimal> ms`, if any. */
  function ParseUnix(stdout: string): (r: Option<real>)
    ensures r.Some? ==>
              exists i :: 0 <= i < |stdout| && MatchAt(UnixTime, stdout, i) == r
                          && forall j :: 0 <= j < i ==> MatchAt(UnixTime, stdout, j).None?
    ensures r.None? <==> forall i :: 0 <= i < |stdout| ==> MatchAt(UnixTime, stdout, i).None?
  {
    Search(UnixTime, stdout)
  }


  /** The Windows branch of `ping_once`: the first per-reply `time=N ms` or
      `time<N ms`; failing any, the first `Average = N ms`; else nothing. */
  function ParseWindows(stdout: string): (r: Option<real>)
    ensures (exists i :: 0 <= i < |stdout| && MatchAt(WindowsTime, stdout, i).Some?) ==>
              r == Search(WindowsTime, stdout) && r.Some?
    ensures (forall i :: 0 <= i < |stdout| ==> MatchAt(WindowsTime, stdout, i).None?) ==>
              r == Search(WindowsAverage, stdout)
    ensures r.None? <==>
              forall i :: 0 <= i < |stdout| ==>
                MatchAt(WindowsTime, stdout, i).None? && MatchAt(WindowsAverage, stdout, i).None?
  {
    var t := Search(WindowsTime, stdout);
    if t.Some? then t else Search(WindowsAverage, stdout)
  }

  /** Windows reports a sub-millisecond reply as `time<1ms`: read as 1 ms. */
  lemma SubMillisecondReplyReadsAsOne()
    ensures ParseWindows("time<1ms") == Some(1.0)
  {
    var s := "time<1ms";
    assert LiteralAtIgnoringCase(s, 0, "time");
    DigitRunUnique(s, 5, 6);
    assert s[5..6] == "1";
    assert [s[5]][..0] == [];
    assert MatchAt(WindowsTime, s, 0) == Some(1.0);
  }

  /** A Unix reply line's fractional latency is read exactly. */
  lemma UnixReplyExample()
    ensures ParseUnix("time=12.5 ms") == Some(12.5)
  {
    UnixReplyMatchesAtStart();
    SearchFromStart(UnixTime, "time=12.5 ms");
  }

  lemma UnixReplyMatchesAtStart()
    ensures MatchAt(UnixTime, "time=12.5 ms", 0) == Some(12.5)
  {
    var s := "time=12.5 ms";
    assert s[5..9] == "12.5";
    DecimalValueExample();
    assert UnixTimeShape(s, 0, 9, 10) by {
      LiteralAtSlice(s, 0, "time=");
      LiteralAtSlice(s, 10, "ms");
    }
    assert DecimalValue(s[5..9]) == 12.5;
    UnixShapeValue(s, 9, 10, 12.5);
  }

  lemma UnixShapeValue(s: string, e: nat, f: nat, v: real)
    requires UnixTimeShape(s, 0, e, f) && DecimalValue(s[5..e]) == v
    ensures MatchAt(UnixTime, s, 0) == Some(v)
  {
    UnixTimeShapeFound(s, 0, e, f);
  }

  /** A match at the very start is the one `re.search` reports. */
  lemma SearchFromStart(p: Pattern, s: string)
    requires |s| > 0 && MatchAt(p, s, 0).Some?
    ensures Search(p, s) == MatchAt(p, s, 0)
  {
    var r := Search(p, s);
    var i :| 0 <= i < |s| && MatchAt(p, s, i) == r && forall j :: 0 <= j < i ==> MatchAt(p, s, j).None?;
    assert i == 0;
  }

  /** `float("12.5")` is 12.5. */
  lemma DecimalValueExample()
    ensures IsDecimalLiteral("12.5") && DecimalValue("12.5") == 12.5
  {
    var g := "12.5";
    assert IsDecimalLiteral(g);
    DigitRunUnique(g, 0, 2);
    assert g[..2] == "12" && g[3..] == "5";
    assert "12"[..1] == "1" && "1"[..0] == "" && "5"[..0] == "";
    assert DigitsValue("12") == 12 && DigitsValue("5") == 5;
  }
}

=== FILE: ping_service.dfy ===
/** `PingService` of src/ping_service.py: one probe (`ping_once`), the
    counted probe loop (`ping_continuous`) and address validation
    (`validate_ip`). Running the ping tool is not modelled: its outcome is
    an input, and so is each probe's outcome in the loop. */
module PingService {
  import opened Options
  import opened Text
  import opened PingParse
  import opened PingStats

  /** What `platform.system()` reports, as far as `ping_once` cares. */
  datatype Platform = Windows | OtherPlatform

  /** How the `subprocess.run` of the ping tool ended. */
  datatype ToolRun =
    | Finished(stdout: string)  // the tool ran; its captured standard output
    | SubprocessFailed          // `TimeoutExpired` or another `SubprocessError`
    | LaunchFailed              // any other exception, e.g. `OSError` when there is no ping tool

  /** A Python call that either returns a value or raises an exception. */
  datatype Call<+T> = Returns(value: T) | Raises

  /** `ping_once`: the latency the tool reported, or `None`. Only subprocess
      errors are caught; any other exception reaches the caller. The exit
      status is not consulted: a latency in the output is enough. */
  function PingOnce(platform: Platform, run: ToolRun): (r: Call<Option<real>>)
    ensures r.Raises? <==> run.LaunchFailed?
    ensures run.SubprocessFailed? ==> r == Returns(None)
    ensures run.Finished? && platform == Windows ==> r == Returns(ParseWindows(run.stdout))
    ensures run.Finished? && platform == OtherPlatform ==> r == Returns(ParseUnix(run.stdout))
    ensures r.Returns? && r.value.Some? ==> r.value.value >= 0.0
  {
    match run
    case LaunchFailed => Raises
    case SubprocessFailed => Returns(None)
    case Finished(out) =>
      if platform == Windows then Returns(ParseWindows(out)) else Returns(ParseUnix(out))
  }

  // ---------------------------------------------------------------------
  // ping_continuous
  // ---------------------------------------------------------------------

  /** One call `progress_callback(latency, current, total)`. */
  datatype Progress = Progress(latency: Option<real>, current: int, total: int)

  /** How many probes `for i in range(duration_seconds)` makes. */
  function ProbeCount(durationSeconds: int): nat {
    if durationSeconds > 0 then durationSeconds else 0
  }

  /** The latency of a successful probe, nothing for a failed one. */
  function Kept(outcome: Option<real>): seq<real> {
    match outcome
    case Some(v) => [v]
    case None => []
  }

  /** The latencies of the successful probes, in probe order. */
  function Successes(outcomes: seq<Option<real>>): seq<real> {
    if |outcomes| == 0 then []
    else Successes(outcomes[..|outcomes| - 1]) + Kept(outcomes[|outcomes| - 1])
  }

  /** `ping_continuous`: one probe per iteration of a loop counted by
      `duration_seconds`, where `outcomes[i]` is what the probe of iteration
      `i` returned. The result keeps the successful latencies in probe
      order; the callback, when given, hears about every probe, numbered 1
      to N in order, success or not. */
  method PingContinuous(serverName: string, ip: string, durationSeconds: int,
                        outcomes: seq<Option<real>>, withCallback: bool)
    returns (result: PingResult, calls: seq<Progress>)
    requires |outcomes| == ProbeCount(durationSeconds)
    ensures result.serverName == serverName && result.ip == ip
    ensures result.latencies == Successes(outcomes)
    ensures result.SuccessfulPings() <= ProbeCount(durationSeconds)
    ensures result.SuccessfulPings() + multiset(outcomes)[None] == ProbeCount(durationSeconds)
    ensures withCallback ==> |calls| == ProbeCount(durationSeconds)
    ensures withCallback ==>
              forall k :: 0 <= k < |calls| ==> calls[k] == Progress(outcomes[k], k + 1, durationSeconds)
    ensures !withCallback ==> calls == []
  {
    var latencies: seq<real> := [];
    calls := [];
    var i := 0;
    while i < ProbeCount(durationSeconds)
      invariant 0 <= i <= |outcomes|
      invariant latencies == Successes(outcomes[..i])
      invariant |latencies| <= i
      invariant withCallback ==> |calls| == i
      invariant withCallback ==>
                  forall k :: 0 <= k < i ==> calls[k] == Progress(outcomes[k], k + 1, durationSeconds)
      invariant !withCallback ==> calls == []
    {
      var latency := outcomes[i];
      if latency.Some? {
        latencies := latencies + [latency.value];
      }
      if withCallback {
        calls := calls + [Progress(latency, i + 1, durationSeconds)];
      }
      assert outcomes[..i + 1][..i] == outcomes[..i];
      i := i + 1;
    }
    assert outcomes[..i] == outcomes;
    result := PingResult(serverName, ip, latencies);
    SuccessesPlusFailures(outcomes);
  }

  /** Probe outcomes split anywhere keep their successes in order. */
  lemma {:induction false} SuccessesAppend(a: seq<Option<real>>, b: seq<Option<real>>)
    ensures Successes(a + b) == Successes(a) + Successes(b)
    decreases |b|
  {
    if |b| > 0 {
      var b' := b[..|b| - 1];
      assert (a + b)[..|a + b| - 1] == a + b';
      SuccessesAppend(a, b');
    } else {
      assert a + b == a;
    }
  }

  /** A latency is kept exactly when some probe returned it. */
  lemma {:induction false} SuccessesMembers(outcomes: seq<Option<real>>, v: real)
    ensures v in Successes(outcomes) <==> Some(v) in outcomes
  {
    if |outcomes| > 0 {
      var init := outcomes[..|outcomes| - 1];
      SuccessesMembers(init, v);
      assert outcomes == init + [outcomes[|outcomes| - 1]];
    }
  }

  /** Every successful probe is kept, so the count of kept latencies is
      the count of probes exactly when none failed. */
  lemma {:induction false} SuccessesCount(outcomes: seq<Option<real>>)
    ensures |Successes(outcomes)| <= |outcomes|
    ensures |Successes(outcomes)| == |outcomes| <==> forall k :: 0 <= k < |outcomes| ==> outcomes[k].Some?
  {
    if |outcomes| > 0 {
      var init := outcomes[..|outcomes| - 1];
      SuccessesCount(init);
      if forall k :: 0 <= k < |init| ==> init[k].Some? {
      } else {
        var k :| 0 <= k < |init| && init[k].None?;
        assert outcomes[k].None?;
      }
    }
  }

  /** Every probe either succeeded or failed: the kept latencies and the
      failed probes together account for all the probes. */
  lemma {:induction false} SuccessesPlusFailures(outcomes: seq<Option<real>>)
    ensures |Successes(outcomes)| + multiset(outcomes)[None] == |outcomes|
  {
    if |outcomes| > 0 {
      var init := outcomes[..|outcomes| - 1];
      SuccessesPlusFailures(init);
      assert outcomes == init + [outcomes[|outcomes| - 1]];
      assert multiset(outcomes) == multiset(init) + multiset{outcomes[|outcomes| - 1]};
    }
  }

  /** A run whose middle probe failed keeps the other two latencies. */
  lemma OneFailureExample()
    ensures Successes([Some(10.0), None, Some(11.0)]) == [10.0, 11.0]
  {
    var o := [Some(10.0), None, Some(11.0)];
    assert o[..2] == [Some(10.0), None];
    assert o[..2][..1] == [Some(10.0)];
    assert [Some(10.0)][..0] == [];
  }

  // ---------------------------------------------------------------------
  // validate_ip
  // ---------------------------------------------------------------------

  /** `validate_ip`: an empty or whitespace-only address is refused without
      a probe; any other is valid exactly when one `ping_once` of it yields
      a latency (and an exception from that probe reaches the caller). */
  function ValidateIp(ip: string, pingOnce: string -> Call<Option<real>>): (r: Call<bool>)
    ensures IsBlank(ip) ==> r == Returns(false)
    ensures !IsBlank(ip) ==> (r.Raises? <==> pingOnce(ip).Raises?)
    ensures !IsBlank(ip) && r.Returns? ==> (r.value <==> pingOnce(ip).value.Some?)
  {
    StripEmptyIffBlank(ip);
    if ip == "" || Strip(ip) == "" then Returns(false)
    else
      match pingOnce(ip)
      case Raises => Raises
      case Returns(latency) => Returns(latency.Some?)
  }
}

=== FILE: ping_stats.dfy ===
/** The result of one continuous ping test and the statistics derived from
    it (`PingResult` in src/ping_service.py). Latencies are exact reals. */
module PingStats {
  import opened Options
  import opened Text

  /** The sum of the latencies. */
  function Sum(xs: seq<real>): real {
    if |xs| == 0 then 0.0 else Sum(xs[..|xs| - 1]) + xs[|xs| - 1]
  }

  /** The smallest latency (`min()` of a non-empty list). */
  function MinOf(xs: seq<real>): (m: real)
    requires |xs| > 0
    ensures m in xs
    ensures forall k :: 0 <= k < |xs| ==> m <= xs[k]
  {
    if |xs| == 1 then xs[0]
    else
      var rest := MinOf(xs[1..]);
      if xs[0] <= rest then xs[0] else rest
  }

  /** The largest latency (`max()` of a non-empty list). */
  function MaxOf(xs: seq<real>): (m: real)
    requires |xs| > 0
    ensures m in xs
    ensures forall k :: 0 <= k < |xs| ==> xs[k] <= m
  {
    if |xs| == 1 then xs[0]
    else
      var rest := MaxOf(xs[1..]);
      if xs[0] >= rest then xs[0] else rest
  }

  /** The sum of the squared distances of the latencies from `centre`. */
  function SquaredDeviations(xs: seq<real>, centre: real): (r: real)
    ensures r >= 0.0
  {
    if |xs| == 0 then 0.0
    else
      var d := xs[|xs| - 1] - centre;
      SquaredDeviations(xs[..|xs| - 1], centre) + d * d
  }

  /** A standard deviation: a plain value, or the square root of a sample
      variance (the square root itself is not computed). */
  datatype Deviation = Exactly(value: real) | SqrtOf(variance: real)

  /** One server's test outcome: its name, its address and the latencies of
      the pings that succeeded, in the order they were observed. */
  datatype PingResult = PingResult(serverName: string, ip: string, latencies: seq<real>) {

    /** `successful_pings`: how many pings produced a latency. There is none
        exactly when the result has no mean, minimum or maximum. */
    function SuccessfulPings(): (n: nat)
      ensures n == 0 <==> Mean().None?
      ensures n == 0 <==> Min().None? && Max().None?
      ensures n > 0 ==> Mean().value * (n as real) == Sum(latencies)
    {
      |latencies|
    }

    /** `mean`: absent exactly when no ping succeeded; otherwise the value
        whose multiple by the count is the sum. */
    function Mean(): (m: Option<real>)
      ensures m.None? <==> |latencies| == 0
      ensures m.Some? ==> m.value * (|latencies| as real) == Sum(latencies)
    {
      if |latencies| == 0 then None else Some(Sum(latencies) / (|latencies| as real))
    }

    /** `min`: absent exactly when no ping succeeded; otherwise a recorded
        latency no larger than any other. */
    function Min(): (m: Option<real>)
      ensures m.None? <==> |latencies| == 0
      ensures m.Some? ==> m.value in latencies
      ensures m.Some? ==> forall k :: 0 <= k < |latencies| ==> m.value <= latencies[k]
    {
      if |latencies| == 0 then None else Some(MinOf(latencies))
    }

    /** `max`: absent exactly when no ping succeeded; otherwise a recorded
        latency no smaller than any other. */
    function Max(): (m: Option<real>)
      ensures m.None? <==> |latencies| == 0
      ensures m.Some? ==> m.value in latencies
      ensures m.Some? ==> forall k :: 0 <= k < |latencies| ==> latencies[k] <= m.value
    {
      if |latencies| == 0 then None else Some(MaxOf(latencies))
    }

    /** `std_dev`: exactly 0.0 (never absent) for fewer than two latencies;
        otherwise the square root of the sample variance, which is
        non-negative and scaled by n - 1 gives the squared deviations from
        the mean. */
    function StdDev(): (d: Deviation)
      ensures |latencies| < 2 ==> d == Exactly(0.0)
      ensures |latencies| >= 2 ==> d.SqrtOf? && d.variance >= 0.0
      ensures |latencies| >= 2 ==>
                d.variance * ((|latencies| - 1) as real) == SquaredDeviations(latencies, Mean().value)
    {
      if |latencies| > 1 then
        var n := |latencies| as real;
        SqrtOf(SquaredDeviations(latencies, Sum(latencies) / n) / (n - 1.0))
      else
        Exactly(0.0)
    }

    /** `str()`: `"<name>: Failed"` exactly when no ping succeeded, and
        otherwise `"<name>: <mean to two places>ms"`. */
    function Render(): (r: string)
      ensures r == serverName + ": Failed" <==> |latencies| == 0
      ensures |latencies| > 0 ==> r == serverName + ": " + FormatFixed2(Mean().value) + "ms"
    {
      match Mean()
      case Some(m) =>
        var r := serverName + ": " + FormatFixed2(m) + "ms";
        assert r[|r| - 1] == 's';
        r
      case None => serverName + ": Failed"
    }
  }

  /** Latencies between `lo` and `hi` sum to between `n * lo` and `n * hi`. */
  lemma {:induction false} SumBounds(xs: seq<real>, lo: real, hi: real)
    requires forall k :: 0 <= k < |xs| ==> lo <= xs[k] <= hi
    ensures (|xs| as real) * lo <= Sum(xs) <= (|xs| as real) * hi
  {
    if |xs| > 0 {
      SumBounds(xs[..|xs| - 1], lo, hi);
    }
  }

  /** For a test with at least one success, min <= mean <= max. */
  lemma MeanWithinRange(r: PingResult)
    requires |r.latencies| > 0
    ensures r.Min().value <= r.Mean().value <= r.Max().value
  {
    MeanBetweenBounds(r, r.Min().value, r.Max().value);
  }

  /** Any bounds on every latency also bound the mean. */
  lemma MeanBetweenBounds(r: PingResult, lo: real, hi: real)
    requires |r.latencies| > 0
    requires forall k :: 0 <= k < |r.latencies| ==> lo <= r.latencies[k] <= hi
    ensures lo <= r.Mean().value <= hi
  {
    SumBounds(r.latencies, lo, hi);
    FactorBounds(|r.latencies| as real, lo, hi, r.Mean().value);
  }

  /** Dividing `n * lo <= n * m <= n * hi` by a positive `n`. */
  lemma FactorBounds(n: real, lo: real, hi: real, m: real)
    requires n > 0.0 && n * lo <= m * n <= n * hi
    ensures lo <= m <= hi
  {
  }

  lemma QuotientBounds(n: real, lo: real, hi: real, total: real)
    requires n > 0.0 && n * lo <= total <= n * hi
    ensures lo <= total / n <= hi
  {
  }

  lemma QuotientOfMultiple(n: real, c: real, total: real)
    requires n > 0.0 && total == n * c
    ensures total / n == c
  {
  }

  /** A constant list sums to its length times the constant. */
  lemma {:induction false} SumOfConstant(xs: seq<real>, c: real)
    requires forall k :: 0 <= k < |xs| ==> xs[k] == c
    ensures Sum(xs) == (|xs| as real) * c
  {
    if |xs| > 0 {
      SumOfConstant(xs[..|xs| - 1], c);
    }
  }

  lemma {:induction false} NoDeviationFromConstant(xs: seq<real>, c: real)
    requires forall k :: 0 <= k < |xs| ==> xs[k] == c
    ensures SquaredDeviations(xs, c) == 0.0
  {
    if |xs| > 0 {
      NoDeviationFromConstant(xs[..|xs| - 1], c);
    }
  }

  /** Identical latencies have mean equal to that latency and a zero
      sample variance. */
  lemma ConstantLatenciesHaveNoSpread(r: PingResult, c: real)
    requires |r.latencies| >= 2
    requires forall k :: 0 <= k < |r.latencies| ==> r.latencies[k] == c
    ensures r.Mean() == Some(c)
    ensures r.StdDev() == SqrtOf(0.0)
  {
    var n := |r.latencies| as real;
    SumOfConstant(r.latencies, c);
    assert r.Mean().value == Sum(r.latencies) / n;
    QuotientOfMultiple(n, c, Sum(r.latencies));
    NoDeviationFromConstant(r.latencies, c);
  }

  /** The scenario of a target answering 10, 12 and 11 ms: mean 11, min 10,
      max 12, rendered with two decimals. */
  lemma ThreeRepliesExample()
    ensures PingResult("A", "10.0.0.1", [10.0, 12.0, 11.0]).Mean() == Some(11.0)
    ensures PingResult("A", "10.0.0.1", [10.0, 12.0, 11.0]).Min() == Some(10.0)
    ensures PingResult("A", "10.0.0.1", [10.0, 12.0, 11.0]).Max() == Some(12.0)
    ensures PingResult("A", "10.0.0.1", [10.0, 12.0, 11.0]).Render() == "A: 11.00ms"
  {
    var xs := [10.0, 12.0, 11.0];
    assert xs[..2] == [10.0, 12.0];
    assert xs[..2][..1] == [10.0];
    assert [10.0][..0] == [];
    assert Sum([10.0]) == 10.0;
    assert Sum([10.0, 12.0]) == 22.0;
    assert Sum(xs) == 33.0;
    assert RoundHalfEven(1100.0) == 1100;
    assert NatToDigits(11) == "11";
  }

  /** A target whose every ping failed renders as failed and has no mean,
      min or max, but a standard deviation of exactly zero. */
  lemma AllFailedExample(name: string, ip: string)
    ensures PingResult(name, ip, []).Render() == name + ": Failed"
    ensures PingResult(name, ip, []).Mean().None?
    ensures PingResult(name, ip, []).Min().None? && PingResult(name, ip, []).Max().None?
    ensures PingResult(name, ip, []).StdDev() == Exactly(0.0)
  {
  }
}

=== FILE: server_sort.dfy ===
/** `sorted(servers, key=lambda s: s.name.lower())`, as used by
    `load_servers` and `sort_servers` in src/storage.py: a stable sort by
    lower-cased name. Written as an insertion sort; its contract states the
    three facts that pin down Python's stable sort, and `SortIsUnique`
    shows they leave no other choice. */
module ServerSort {
  import opened Text
  import opened Servers

  /** The sort key: the lower-cased name. */
  function SortKey(s: Server): string {
    Lower(s.name)
  }

  predicate KeyLe(a: Server, b: Server) {
    StrLe(SortKey(a), SortKey(b))
  }

  /** Ordered by lower-cased name. */
  predicate SortedByName(xs: seq<Server>) {
    forall i, j :: 0 <= i < j < |xs| ==> KeyLe(xs[i], xs[j])
  }

  /** The servers of `xs` whose sort key is `k`, in their order in `xs`. */
  function WithKey(xs: seq<Server>, k: string): seq<Server> {
    if |xs| == 0 then []
    else (if SortKey(xs[0]) == k then [xs[0]] else []) + WithKey(xs[1..], k)
  }

  /** Places `x` before the first server whose key is not below its own. */
  function Insert(x: Server, xs: seq<Server>): seq<Server> {
    if |xs| == 0 then [x]
    else if KeyLe(x, xs[0]) then [x] + xs
    else [xs[0]] + Insert(x, xs[1..])
  }

  /** A server placed before an ordered sequence whose keys are all at
      least its own keeps it ordered. */
  lemma ConsSorted(a: Server, rest: seq<Server>)
    requires SortedByName(rest)
    requires forall j :: 0 <= j < |rest| ==> KeyLe(a, rest[j])
    ensures SortedByName([a] + rest)
  {
    forall i, j | 0 <= i < j < |rest| + 1 ensures KeyLe(([a] + rest)[i], ([a] + rest)[j]) {
      if i > 0 {
        assert ([a] + rest)[i] == rest[i - 1];
      }
    }
  }

  lemma {:induction false} InsertMembers(x: Server, xs: seq<Server>)
    ensures forall y :: y in Insert(x, xs) <==> y == x || y in xs
    ensures multiset(Insert(x, xs)) == multiset(xs) + multiset{x}
  {
    if |xs| > 0 && !KeyLe(x, xs[0]) {
      InsertMembers(x, xs[1..]);
      assert xs == [xs[0]] + xs[1..];
    }
  }

  lemma {:induction false} InsertSorted(x: Server, xs: seq<Server>)
    requires SortedByName(xs)
    ensures SortedByName(Insert(x, xs))
  {
    if |xs| == 0 {
    } else if KeyLe(x, xs[0]) {
      forall j | 0 <= j < |xs| ensures KeyLe(x, xs[j]) {
        if j > 0 {
          assert KeyLe(xs[0], xs[j]);
          StrLeTransitive(SortKey(x), SortKey(xs[0]), SortKey(xs[j]));
        }
      }
      ConsSorted(x, xs);
    } else {
      StrLeTotal(SortKey(x), SortKey(xs[0]));
      var rest := Insert(x, xs[1..]);
      assert SortedByName(xs[1..]) by {
        forall i, j | 0 <= i < j < |xs| - 1 ensures KeyLe(xs[1..][i], xs[1..][j]) {
          assert KeyLe(xs[i + 1], xs[j + 1]);
        }
      }
      InsertSorted(x, xs[1..]);
      InsertMembers(x, xs[1..]);
      forall j | 0 <= j < |rest| ensures KeyLe(xs[0], rest[j]) {
        assert rest[j] in rest;
        if rest[j] != x {
          var i :| 0 <= i < |xs[1..]| && xs[1..][i] == rest[j];
          assert KeyLe(xs[0], xs[i + 1]);
        }
      }
      ConsSorted(xs[0], rest);
    }
  }

  lemma WithKeyCons(a: Server, ys: seq<Server>, k: string)
    ensures WithKey([a] + ys, k) == (if SortKey(a) == k then [a] else []) + WithKey(ys, k)
  {
    assert ([a] + ys)[1..] == ys;
  }

  lemma {:induction false} InsertStable(x: Server, xs: seq<Server>, k: string)
    ensures WithKey(Insert(x, xs), k) == (if SortKey(x) == k then [x] else []) + WithKey(xs, k)
  {
    if |xs| == 0 {
      WithKeyCons(x, [], k);
    } else if KeyLe(x, xs[0]) {
      WithKeyCons(x, xs, k);
    } else {
      StrLeReflexive(SortKey(x));
      assert !(SortKey(x) == k && SortKey(xs[0]) == k);
      InsertStable(x, xs[1..], k);
      WithKeyCons(xs[0], Insert(x, xs[1..]), k);
    }
  }

  /** The stable sort by lower-cased name: the result is ordered, holds the
      same servers, and servers with equal keys keep their relative
      order. */
  function SortByName(xs: seq<Server>): (r: seq<Server>)
    ensures SortedByName(r)
    ensures multiset(r) == multiset(xs)
    ensures forall k :: WithKey(r, k) == WithKey(xs, k)
  {
    if |xs| == 0 then []
    else
      var rest := SortByName(xs[1..]);
      InsertSorted(xs[0], rest);
      InsertMembers(xs[0], rest);
      assert xs == [xs[0]] + xs[1..];
      assert forall k :: WithKey(Insert(xs[0], rest), k) == WithKey(xs, k) by {
        forall k ensures WithKey(Insert(xs[0], rest), k) == WithKey(xs, k) {
          InsertStable(xs[0], rest, k);
        }
      }
      Insert(xs[0], rest)
  }

  lemma {:induction false} WithKeyMembers(xs: seq<Server>, k: string, y: Server)
    ensures y in WithKey(xs, k) <==> y in xs && SortKey(y) == k
  {
    if |xs| > 0 {
      WithKeyMembers(xs[1..], k, y);
      assert xs == [xs[0]] + xs[1..];
    }
  }

  /** The first server of an ordered sequence has the least key: any
      server of the sequence with the key `k` has a key no smaller. */
  lemma FirstKeyLeast(t: seq<Server>, k: string, y: Server)
    requires |t| > 0 && SortedByName(t)
    requires y in WithKey(t, k)
    ensures y == t[0] || KeyLe(t[0], y)
  {
    WithKeyMembers(t, k, y);
    var i :| 0 <= i < |t| && t[i] == y;
    assert i == 0 || KeyLe(t[0], t[i]);
  }

  /** Two non-empty ordered sequences with the same servers of each of
      their first keys start with the same server. */
  lemma FirstAgrees(t: seq<Server>, u: seq<Server>)
    requires |t| > 0 && |u| > 0
    requires SortedByName(t) && SortedByName(u)
    requires WithKey(t, SortKey(t[0])) == WithKey(u, SortKey(t[0]))
    requires WithKey(t, SortKey(u[0])) == WithKey(u, SortKey(u[0]))
    ensures t[0] == u[0]
  {
    var a, b := t[0], u[0];
    // Each first element's key occurs in the other sequence, whose first
    // element has the least key, so the keys agree.
    assert WithKey(t, SortKey(a)) == [a] + WithKey(t[1..], SortKey(a));
    assert WithKey(u, SortKey(b)) == [b] + WithKey(u[1..], SortKey(b));
    FirstKeyLeast(u, SortKey(a), a);
    FirstKeyLeast(t, SortKey(b), b);
    if a != b {
      StrLeAntisymmetric(SortKey(a), SortKey(b));
    }
    // Both key lists for that key then start with the first elements.
    assert WithKey(u, SortKey(a)) == [b] + WithKey(u[1..], SortKey(a));
    assert WithKey(t, SortKey(a))[0] == a;
  }

  /** Sequences that start alike and agree on every key agree on every key
      after their first server. */
  lemma TailsAgree(t: seq<Server>, u: seq<Server>, k: string)
    requires |t| > 0 && |u| > 0 && t[0] == u[0]
    requires WithKey(t, k) == WithKey(u, k)
    ensures WithKey(t[1..], k) == WithKey(u[1..], k)
  {
    var x, y := WithKey(t[1..], k), WithKey(u[1..], k);
    if SortKey(t[0]) == k {
      assert WithKey(t, k) == [t[0]] + x;
      assert WithKey(u, k) == [u[0]] + y;
      assert x == ([t[0]] + x)[1..] == WithKey(t, k)[1..];
      assert y == ([u[0]] + y)[1..] == WithKey(u, k)[1..];
    } else {
      assert WithKey(t, k) == [] + x == x;
      assert WithKey(u, k) == [] + y == y;
    }
  }

  /** Two sequences ordered by key, with the same servers of each key in
      the same order, are the same sequence. */
  lemma {:induction false} SortedStableUnique(t: seq<Server>, u: seq<Server>)
    requires SortedByName(t) && SortedByName(u)
    requires forall k :: WithKey(t, k) == WithKey(u, k)
    ensures t == u
    decreases |t| + |u|
  {
    // If one were empty and the other not, the key of the first element
    // would list different servers in the two.
    assert |t| > 0 ==> WithKey(t, SortKey(t[0])) != [];
    assert |u| > 0 ==> WithKey(u, SortKey(u[0])) != [];
    if |t| > 0 && |u| > 0 {
      FirstAgrees(t, u);
      forall k ensures WithKey(t[1..], k) == WithKey(u[1..], k) {
        TailsAgree(t, u, k);
      }
      assert SortedByName(t[1..]) && SortedByName(u[1..]) by {
        forall i, j | 0 <= i < j < |t| - 1 ensures KeyLe(t[1..][i], t[1..][j]) {
          assert KeyLe(t[i + 1], t[j + 1]);
        }
        forall i, j | 0 <= i < j < |u| - 1 ensures KeyLe(u[1..][i], u[1..][j]) {
          assert KeyLe(u[i + 1], u[j + 1]);
        }
      }
      SortedStableUnique(t[1..], u[1..]);
      assert t == [t[0]] + t[1..] && u == [u[0]] + u[1..];
    }
  }

  /** Any ordering by lower-cased name that keeps servers with equal keys
      in their input order is the one `SortByName` computes: it is Python's
      stable `sorted`. */
  lemma SortIsUnique(xs: seq<Server>, t: seq<Server>)
    requires SortedByName(t)
    requires forall k :: WithKey(t, k) == WithKey(xs, k)
    ensures t == SortByName(xs)
  {
    SortedStableUnique(t, SortByName(xs));
  }
}

=== FILE: servers.dfy ===
/** `Server` of src/storage.py: a named address, compared and hashed by
    name only, and its dictionary form for the JSON configuration. */
module Servers {
  import opened Options

  datatype Server = Server(name: string, ip: string)

  /** The right-hand side of `==`: a `Server`, or anything else. */
  datatype Operand = AServer(server: Server) | NotAServer

  /** `Server.__eq__`: equal to another server with the same name, whatever
      its address; never equal to a value of another type. */
  function Equals(a: Server, other: Operand): (r: bool)
    ensures other.NotAServer? ==> !r
    ensures other.AServer? ==> (r <==> a.name == other.server.name)
  {
    match other
    case AServer(b) => a.name == b.name
    case NotAServer => false
  }

  /** `Server.__hash__`: the hash of the name, i.e. a function of the name
      alone. */
  function HashKey(s: Server): (h: string)
    ensures forall t :: Equals(s, AServer(t)) ==> h == t.name
  {
    s.name
  }

  /** Equality between servers is an equivalence that ignores addresses,
      and equal servers hash alike (the contract Python's sets and dicts
      rely on). */
  lemma EqualityByName(a: Server, b: Server, c: Server)
    ensures Equals(a, AServer(a))
    ensures Equals(a, AServer(b)) <==> Equals(b, AServer(a))
    ensures Equals(a, AServer(b)) && Equals(b, AServer(c)) ==> Equals(a, AServer(c))
    ensures Equals(a, AServer(b)) ==> HashKey(a) == HashKey(b)
    ensures Equals(Server(a.name, b.ip), AServer(a))
  {
  }

  /** A JSON object with string values. */
  type Dict = map<string, string>

  /** `to_dict`: the object `{"name": …, "ip": …}`. */
  function ToDict(s: Server): (d: Dict)
    ensures d.Keys == {"name", "ip"}
    ensures d["name"] == s.name && d["ip"] == s.ip
  {
    map["name" := s.name, "ip" := s.ip]
  }

  /** `from_dict`: `None` stands for the `KeyError` raised when either key
      is missing; other keys are ignored. */
  function FromDict(d: Dict): (r: Option<Server>)
    ensures r.Some? <==> "name" in d && "ip" in d
    ensures r.Some? ==> r.value.name == d["name"] && r.value.ip == d["ip"]
  {
    if "name" in d && "ip" in d then Some(Server(d["name"], d["ip"])) else None
  }

  /** Reading back a written server gives the same name and address. */
  lemma DictRoundTrip(s: Server)
    ensures FromDict(ToDict(s)) == Some(s)
  {
  }

  /** Writing back a read server gives the object it was read from, less
      any keys other than `name` and `ip`. */
  lemma DictRoundTripBack(d: Dict)
    requires FromDict(d).Some?
    ensures ToDict(FromDict(d).value) == map k | k in d && k in {"name", "ip"} :: d[k]
  {
  }
}

=== FILE: storage.dfy ===
/** `Storage` of src/storage.py: the operations on the list of configured
    servers. File access is not modelled: what reading `servers.json`
    produced and whether `save_servers` succeeded are inputs. */
module Storage {
  import opened Options
  import opened Servers
  import opened ServerSort

  // ---------------------------------------------------------------------
  // Default configuration and loading
  // ---------------------------------------------------------------------

  /** `_create_default_config`: the two public resolvers. */
  function DefaultServers(): (r: seq<Server>)
    ensures |r| == 2 && UniqueNames(r)
  {
    [Server("Google DNS", "8.8.8.8"), Server("Cloudflare DNS", "1.1.1.1")]
  }

  /** The default list is returned as written, Google first, which is not
      the order by name: sorting it would put Cloudflare first. */
  lemma DefaultServersNotSorted()
    ensures !SortedByName(DefaultServers())
    ensures SortByName(DefaultServers()) == [DefaultServers()[1], DefaultServers()[0]]
  {
    var g, c := DefaultServers()[0], DefaultServers()[1];
    assert SortKey(g)[0] == 'g' && SortKey(c)[0] == 'c';
    assert !KeyLe(g, c) && KeyLe(c, g);
    var t := [c, g];
    assert SortedByName(t);
    forall k ensures WithKey(t, k) == WithKey(DefaultServers(), k) {
      assert SortKey(g) != SortKey(c);
      assert t[1..] == [g] && [g][1..] == [] && DefaultServers()[1..] == [c] && [c][1..] == [];
    }
    SortIsUnique(DefaultServers(), t);
  }

  /** What reading `servers.json` produced. */
  datatype ConfigRead =
    | NoFile                             // the file does not exist
    | Unreadable                         // `JSONDecodeError` or `IOError`
    | Parsed(servers: Option<seq<Dict>>) // the `servers` entry, if the object has one

  /** `[Server.from_dict(s) for s in entries]`, or `None` for the `KeyError`
      of an entry that lacks `name` or `ip`. */
  function FromDicts(entries: seq<Dict>): (r: Option<seq<Server>>)
    ensures r.Some? <==> forall k :: 0 <= k < |entries| ==> FromDict(entries[k]).Some?
    ensures r.Some? ==> |r.value| == |entries|
    ensures r.Some? ==> forall k :: 0 <= k < |entries| ==> FromDict(entries[k]) == Some(r.value[k])
  {
    if |entries| == 0 then Some([])
    else
      assert forall k :: 1 <= k < |entries| ==> entries[k] == entries[1..][k - 1];
      match (FromDict(entries[0]), FromDicts(entries[1..]))
      case (Some(s), Some(rest)) => Some([s] + rest)
      case _ => None
  }

  /** `load_servers`: the default list when there is no file, when it cannot
      be read, or when an entry lacks a key; otherwise the entries (none
      when the object has no `servers`) sorted stably by lower-cased
      name. */
  function LoadServers(read: ConfigRead): (r: seq<Server>)
    ensures read.NoFile? || read.Unreadable? ==> r == DefaultServers()
    ensures read.Parsed? && FromDicts(read.servers.GetOr([])).None? ==> r == DefaultServers()
    ensures read == Parsed(None) ==> r == []
    ensures read.Parsed? && FromDicts(read.servers.GetOr([])).Some? ==>
              var loaded := FromDicts(read.servers.GetOr([])).value;
              && SortedByName(r)
              && multiset(r) == multiset(loaded)
              && forall k :: WithKey(r, k) == WithKey(loaded, k)
  {
    match read
    case NoFile => DefaultServers()
    case Unreadable => DefaultServers()
    case Parsed(entries) =>
      match FromDicts(entries.GetOr([]))
      case Some(loaded) => SortByName(loaded)
      case None => DefaultServers()
  }

  // ---------------------------------------------------------------------
  // Adding and removing
  // ---------------------------------------------------------------------

  /** Some server in the list has exactly this name (case-sensitive). */
  predicate NameTaken(servers: seq<Server>, name: string) {
    exists k :: 0 <= k < |servers| && servers[k].name == name
  }

  /** No two servers share a name: what `add_server` keeps true. */
  predicate UniqueNames(servers: seq<Server>) {
    forall i, j :: 0 <= i < j < |servers| ==> servers[i].name != servers[j].name
  }

  /** `any(s.name == name for s in servers)`. */
  function AnyNamed(servers: seq<Server>, name: string): (r: bool)
    ensures r <==> NameTaken(servers, name)
  {
    if |servers| == 0 then false
    else
      assert forall k :: 1 <= k < |servers| ==> servers[k] == servers[1..][k - 1];
      servers[0].name == name || AnyNamed(servers[1..], name)
  }

  /** `add_server`, where `saved` is whether `save_servers` succeeded on
      the extended list. A duplicate name is refused with the list
      unchanged; otherwise the new server goes at the end when the save
      succeeds, and the list stays unchanged when it fails. */
  function AddServer(servers: seq<Server>, name: string, ip: string, saved: bool): (r: (seq<Server>, bool, string))
    ensures NameTaken(servers, name) ==> r == (servers, false, "Server name '" + name + "' already exists")
    ensures !NameTaken(servers, name) && saved ==> r == (servers + [Server(name, ip)], true, "")
    ensures !NameTaken(servers, name) && !saved ==> r == (servers, false, "Failed to save configuration")
  {
    if AnyNamed(servers, name) then
      (servers, false, "Server name '" + name + "' already exists")
    else
      var updated := servers + [Server(name, ip)];
      if saved then (updated, true, "") else (servers, false, "Failed to save configuration")
  }

  /** `[s for s in servers if s.name != name]`. */
  function WithoutName(servers: seq<Server>, name: string): (r: seq<Server>)
    ensures |r| <= |servers|
  {
    if |servers| == 0 then []
    else
      (if servers[0].name != name then [servers[0]] else []) + WithoutName(servers[1..], name)
  }

  /** `remove_server`, where `saved` is whether `save_servers` succeeded on
      the filtered list: success (even if no server had that name) with
      every server of that name gone and the rest kept, or the list
      unchanged when the save fails. */
  function RemoveServer(servers: seq<Server>, name: string, saved: bool): (r: (seq<Server>, bool))
    ensures r.1 <==> saved
    ensures !saved ==> r.0 == servers
    ensures saved ==> forall s :: s in r.0 <==> s in servers && s.name != name
    ensures saved ==> !NameTaken(r.0, name)
    ensures saved ==> r.0 == WithoutName(servers, name)
  {
    WithoutNameMembers(servers, name);
    var updated := WithoutName(servers, name);
    if saved then (updated, true) else (servers, false)
  }

  lemma {:induction false} WithoutNameMembers(servers: seq<Server>, name: string)
    ensures forall s :: s in WithoutName(servers, name) <==> s in servers && s.name != name
  {
    if |servers| > 0 {
      WithoutNameMembers(servers[1..], name);
      assert servers == [servers[0]] + servers[1..];
    }
  }

  /** Filtering drops a server exactly when some server has the name. */
  lemma {:induction false} WithoutNameLength(servers: seq<Server>, name: string)
    ensures |WithoutName(servers, name)| == |servers| <==> !NameTaken(servers, name)
  {
    if |servers| > 0 {
      WithoutNameLength(servers[1..], name);
      if servers[0].name != name {
        if NameTaken(servers, name) {
          var k :| 0 <= k < |servers| && servers[k].name == name;
          assert servers[1..][k - 1].name == name;
        }
      } else {
        assert servers[0].name == name;
      }
    }
  }

  /** Filtering by name acts on each server separately, so it keeps the
      survivors in their original order. */
  lemma {:induction false} WithoutNameAppend(a: seq<Server>, b: seq<Server>, name: string)
    ensures WithoutName(a + b, name) == WithoutName(a, name) + WithoutName(b, name)
  {
    if |a| == 0 {
      assert a + b == b;
      assert WithoutName(a, name) == [];
    } else {
      var head := if a[0].name != name then [a[0]] else [];
      var x, y, z := WithoutName(a[1..], name), WithoutName(b, name), WithoutName(a[1..] + b, name);
      assert WithoutName(a + b, name) == head + z by {
        assert (a + b)[0] == a[0] && (a + b)[1..] == a[1..] + b;
      }
      assert z == x + y by {
        WithoutNameAppend(a[1..], b, name);
      }
      assert WithoutName(a, name) == head + x;
      assert head + (x + y) == (head + x) + y;
    }
  }

  /** Removing a name no server has changes nothing. */
  lemma {:induction false} WithoutAbsentName(servers: seq<Server>, name: string)
    requires !NameTaken(servers, name)
    ensures WithoutName(servers, name) == servers
  {
    if |servers| > 0 {
      assert forall k :: 0 <= k < |servers| - 1 ==> servers[1..][k] == servers[k + 1];
      WithoutAbsentName(servers[1..], name);
      assert servers == [servers[0]] + servers[1..];
    }
  }

  /** `remove_server` of a name no server has keeps the list and reports
      the outcome of the save as its success. */
  lemma RemoveAbsentName(servers: seq<Server>, name: string, saved: bool)
    requires !NameTaken(servers, name)
    ensures RemoveServer(servers, name, saved) == (servers, saved)
  {
    WithoutAbsentName(servers, name);
  }

  /** A successful `add_server` is undone by a successful `remove_server`
      of the same name. */
  lemma RemoveUndoesAdd(servers: seq<Server>, name: string, ip: string)
    requires !NameTaken(servers, name)
    ensures RemoveServer(AddServer(servers, name, ip, true).0, name, true) == (servers, true)
  {
    var added := AddServer(servers, name, ip, true);
    assert added.0 == servers + [Server(name, ip)];
    WithoutNameAppend(servers, [Server(name, ip)], name);
    WithoutAbsentName(servers, name);
    assert [Server(name, ip)][1..] == [];
    assert WithoutName([Server(name, ip)], name) == [];
    assert WithoutName(added.0, name) == servers;
  }

  /** `add_server` never creates a duplicate name, succeeds exactly when it
      grows the list, and then grows it by one. */
  lemma AddKeepsNamesUnique(servers: seq<Server>, name: string, ip: string, saved: bool)
    requires UniqueNames(servers)
    ensures UniqueNames(AddServer(servers, name, ip, saved).0)
    ensures var r := AddServer(servers, name, ip, saved);
            |r.0| == |servers| + (if r.1 then 1 else 0)
  {
    var r := AddServer(servers, name, ip, saved);
    if r.1 {
      forall i, j | 0 <= i < j < |r.0| ensures r.0[i].name != r.0[j].name {
        if j == |servers| {
          assert r.0[i] == servers[i];
        }
      }
    }
  }

  /** `sort_servers`, where `saved` is whether the `save_servers` of the
      sorted list succeeded: that outcome is ignored, and the sorted list is
      returned either way. */
  function SortServers(servers: seq<Server>, saved: bool): (r: seq<Server>)
    ensures SortedByName(r)
    ensures multiset(r) == multiset(servers)
    ensures forall k :: WithKey(r, k) == WithKey(servers, k)
  {
    SortByName(servers)
  }

  /** Sorting is idempotent, whatever the outcome of either save. */
  lemma SortServersIdempotent(servers: seq<Server>, saved1: bool, saved2: bool)
    ensures SortServers(SortServers(servers, saved1), saved2) == SortServers(servers, saved2)
  {
    var once := SortServers(servers, saved1);
    SortIsUnique(servers, once);
    SortIsUnique(once, once);
  }

  // ---------------------------------------------------------------------
  // Result files
  // ---------------------------------------------------------------------

  const ResultsPrefix := "ping_results_"
  const ResultsSuffix := ".txt"

  /** The file name `save_batch_results` writes to: the given timestamp,
      or the formatted current time `now` when none is given. */
  function ResultsFilename(timestamp: Option<string>, now: string): (f: string)
    ensures |f| == |ResultsPrefix| + |timestamp.GetOr(now)| + |ResultsSuffix|
    ensures f[..|ResultsPrefix|] == ResultsPrefix && f[|f| - |ResultsSuffix|..] == ResultsSuffix
  {
    ResultsPrefix + timestamp.GetOr(now) + ResultsSuffix
  }

  /** The timestamp a results file name carries. */
  function TimestampOf(filename: string): string
    requires |filename| >= |ResultsPrefix| + |ResultsSuffix|
  {
    filename[|ResultsPrefix|..|filename| - |ResultsSuffix|]
  }

  /** A results file name starts with `ping_results_`, ends with `.txt`,
      and the timestamp between them is the one given (or `now`). */
  lemma ResultsFilenameParts(timestamp: Option<string>, now: string)
    ensures var f := ResultsFilename(timestamp, now);
            && |f| >= |ResultsPrefix| + |ResultsSuffix|
            && f[..|ResultsPrefix|] == ResultsPrefix
            && f[|f| - |ResultsSuffix|..] == ResultsSuffix
            && TimestampOf(f) == timestamp.GetOr(now)
  {
  }
}

=== FILE: styles.dfy ===
/** `Styles.get_status_color` of src/styles.py: the colour that classifies a
    latency in milliseconds. */
module Styles {
  /** The status colours of the `Colors` palette. */
  const StatusExcellent := "#27AE60"
  const StatusGood := "#5CB85C"
  const StatusFair := "#F39C12"
  const StatusPoor := "#E74C3C"
  const StatusFailed := "#95A5A6"

  /** `get_status_color`: negative latencies mark a failed ping; otherwise
      the thresholds 50, 100 and 200 ms separate the four grades, each lower
      bound inclusive. */
  function StatusColor(latency: real): (r: string)
    ensures r == StatusFailed <==> latency < 0.0
    ensures r == StatusExcellent <==> 0.0 <= latency < 50.0
    ensures r == StatusGood <==> 50.0 <= latency < 100.0
    ensures r == StatusFair <==> 100.0 <= latency < 200.0
    ensures r == StatusPoor <==> 200.0 <= latency
  {
    if latency < 0.0 then StatusFailed
    else if latency < 50.0 then StatusExcellent
    else if latency < 100.0 then StatusGood
    else if latency < 200.0 then StatusFair
    else StatusPoor
  }

  /** The grades from best (0) to worst (3), and the failed colour (4). */
  function Rank(color: string): nat {
    if color == StatusExcellent then 0
    else if color == StatusGood then 1
    else if color == StatusFair then 2
    else if color == StatusPoor then 3
    else 4
  }

  /** Every latency gets one of the five colours, and a higher non-negative
      latency never gets a better grade. */
  lemma StatusColorMonotone(a: real, b: real)
    ensures StatusColor(a) in {StatusExcellent, StatusGood, StatusFair, StatusPoor, StatusFailed}
    ensures 0.0 <= a <= b ==> Rank(StatusColor(a)) <= Rank(StatusColor(b)) <= 3
  {
  }

  /** The boundary values: 50 ms is already good, 200 ms already poor. */
  lemma StatusColorBoundaries()
    ensures StatusColor(-1.0) == StatusFailed
    ensures StatusColor(0.0) == StatusExcellent
    ensures StatusColor(50.0) == StatusGood
    ensures StatusColor(100.0) == StatusFair
    ensures StatusColor(200.0) == StatusPoor
  {
  }
}

=== FILE: text.dfy ===
/** Character classes, ASCII case folding, Python's string order, digit
    strings and the `.2f` fixed-point rendering the ping monitor relies on. */
module Text {

  // ---------------------------------------------------------------------
  // Character classes
  // ---------------------------------------------------------------------

  /** `\d` of a regular expression, restricted to the ASCII digits. */
  predicate IsDigit(c: char) {
    '0' <= c <= '9'
  }

  function DigitValue(c: char): (d: nat)
    requires IsDigit(c)
    ensures d < 10
  {
    (c as int) - ('0' as int)
  }

  function DigitChar(d: nat): (c: char)
    requires d < 10
    ensures IsDigit(c) && DigitValue(c) == d
  {
    (('0' as int) + d) as char
  }

  /** Python's notion of whitespace: what `\s` matches in a str pattern and
      what `str.strip()` removes (the characters CPython's
      `Py_UNICODE_ISSPACE` accepts). */
  predicate IsSpace(c: char) {
    var n := c as int;
    || (0x09 <= n <= 0x0D) || (0x1C <= n <= 0x20)
    || n == 0x85 || n == 0xA0 || n == 0x1680
    || (0x2000 <= n <= 0x200A)
    || n == 0x2028 || n == 0x2029 || n == 0x202F || n == 0x205F || n == 0x3000
  }

  /** ASCII lower-casing of one character. */
  function LowerChar(c: char): char {
    if 'A' <= c <= 'Z' then ((c as int) + 32) as char else c
  }

  /** `str.lower()`, restricted to ASCII letters. */
  function Lower(s: string): (r: string)
    ensures |r| == |s|
    ensures forall k :: 0 <= k < |s| ==> r[k] == LowerChar(s[k])
  {
    seq(|s|, k requires 0 <= k < |s| => LowerChar(s[k]))
  }

  // ---------------------------------------------------------------------
  // Positional matching
  // ---------------------------------------------------------------------

  /** The literal `lit` occurs in `s` at position `i`. */
  predicate LiteralAt(s: string, i: nat, lit: string) {
    i + |lit| <= |s| && forall k :: 0 <= k < |lit| ==> s[i + k] == lit[k]
  }

  lemma LiteralAtSlice(s: string, i: nat, lit: string)
    requires i + |lit| <= |s| && s[i..i + |lit|] == lit
    ensures LiteralAt(s, i, lit)
  {
    forall k | 0 <= k < |lit| ensures s[i + k] == lit[k] {
      assert lit[k] == s[i..i + |lit|][k];
    }
  }

  /** The literal `lit` occurs in `s` at position `i`, ignoring ASCII case. */
  predicate LiteralAtIgnoringCase(s: string, i: nat, lit: string) {
    i + |lit| <= |s| && forall k :: 0 <= k < |lit| ==> LowerChar(s[i + k]) == LowerChar(lit[k])
  }

  /** Every character of `s[a..b]` is a digit. */
  predicate AllDigitsIn(s: string, a: nat, b: nat) {
    a <= b <= |s| && forall k :: a <= k < b ==> IsDigit(s[k])
  }

  /** Every character of `s[a..b]` is whitespace. */
  predicate AllSpaceIn(s: string, a: nat, b: nat) {
    a <= b <= |s| && forall k :: a <= k < b ==> IsSpace(s[k])
  }

  /** Length of the longest run of digits in `s` starting at `i`: what a
      greedy `\d*` consumes there. */
  function DigitRun(s: string, i: nat): (n: nat)
    requires i <= |s|
    ensures AllDigitsIn(s, i, i + n)
    ensures i + n == |s| || !IsDigit(s[i + n])
    decreases |s| - i
  {
    if i == |s| || !IsDigit(s[i]) then 0 else 1 + DigitRun(s, i + 1)
  }

  /** Length of the longest run of whitespace in `s` starting at `i`: what a
      greedy `\s*` consumes there. */
  function SpaceRun(s: string, i: nat): (n: nat)
    requires i <= |s|
    ensures AllSpaceIn(s, i, i + n)
    ensures i + n == |s| || !IsSpace(s[i + n])
    decreases |s| - i
  {
    if i == |s| || !IsSpace(s[i]) then 0 else 1 + SpaceRun(s, i + 1)
  }

  /** A run of digits that cannot be extended is the one `DigitRun` finds. */
  lemma DigitRunUnique(s: string, i: nat, j: nat)
    requires AllDigitsIn(s, i, j)
    requires j == |s| || !IsDigit(s[j])
    ensures DigitRun(s, i) == j - i
  {
  }

  /** A run of whitespace that cannot be extended is the one `SpaceRun` finds. */
  lemma SpaceRunUnique(s: string, i: nat, j: nat)
    requires AllSpaceIn(s, i, j)
    requires j == |s| || !IsSpace(s[j])
    ensures SpaceRun(s, i) == j - i
  {
  }

  // ---------------------------------------------------------------------
  // Digit strings and decimal literals
  // ---------------------------------------------------------------------

  predicate AllDigits(s: string) {
    forall k :: 0 <= k < |s| ==> IsDigit(s[k])
  }

  /** The value of a string of decimal digits (`int()` of it). */
  function DigitsValue(s: string): nat
    requires AllDigits(s)
  {
    if |s| == 0 then 0 else 10 * DigitsValue(s[..|s| - 1]) + DigitValue(s[|s| - 1])
  }

  function Pow10(n: nat): (p: nat)
    ensures p >= 1
  {
    if n == 0 then 1 else 10 * Pow10(n - 1)
  }

  /** Python's `str()` of a non-negative integer: its decimal digits, no
      leading zero. */
  function NatToDigits(n: nat): (r: string)
    ensures |r| >= 1 && AllDigits(r)
    ensures |r| > 1 ==> r[0] != '0'
  {
    if n < 10 then [DigitChar(n)] else NatToDigits(n / 10) + [DigitChar(n % 10)]
  }

  /** Reading back the digits `NatToDigits` writes yields the number. */
  lemma {:induction false} DigitsRoundTrip(n: nat)
    ensures DigitsValue(NatToDigits(n)) == n
  {
    var r := NatToDigits(n);
    if n >= 10 {
      DigitsRoundTrip(n / 10);
      assert r[..|r| - 1] == NatToDigits(n / 10);
    }
  }

  /** The text a `\d+\.?\d*` group matches: a digit first, then digits with
      at most one decimal point among them. */
  predicate IsDecimalLiteral(g: string) {
    && |g| >= 1 && IsDigit(g[0])
    && (forall k :: 0 <= k < |g| ==> IsDigit(g[k]) || g[k] == '.')
    && (forall k, m :: 0 <= k < m < |g| && g[k] == '.' ==> g[m] != '.')
  }

  /** The value of the digits after a decimal point. */
  function FractionValue(f: string): (r: real)
    requires AllDigits(f)
    ensures r >= 0.0
  {
    (DigitsValue(f) as real) / (Pow10(|f|) as real)
  }

  /** What `float()` makes of a decimal literal, as an exact real. */
  function DecimalValue(g: string): (r: real)
    requires IsDecimalLiteral(g)
    ensures r >= 0.0
  {
    var a := DigitRun(g, 0);
    assert AllDigits(g[..a]);
    if a == |g| then DigitsValue(g) as real
    else
      assert forall m :: a < m < |g| ==> IsDigit(g[m]);
      assert AllDigits(g[a + 1..]);
      DigitsValue(g[..a]) as real + FractionValue(g[a + 1..])
  }

  /** `n` digits are worth less than `10^n`. */
  lemma {:induction false} DigitsBelowPow10(f: string)
    requires AllDigits(f)
    ensures DigitsValue(f) < Pow10(|f|)
  {
    if |f| > 0 {
      var init := f[..|f| - 1];
      assert AllDigits(init);
      DigitsBelowPow10(init);
      assert DigitsValue(f) == 10 * DigitsValue(init) + DigitValue(f[|f| - 1]);
    }
  }

  /** `float()` of a decimal literal has the digits before the point as
      its integer part: the fraction after the point is below 1. */
  lemma DecimalIntegerPart(g: string)
    requires IsDecimalLiteral(g)
    ensures var a := DigitRun(g, 0);
            && AllDigits(g[..a])
            && DigitsValue(g[..a]) as real <= DecimalValue(g) < DigitsValue(g[..a]) as real + 1.0
  {
    var a := DigitRun(g, 0);
    assert AllDigits(g[..a]);
    if a == |g| {
      assert g[..a] == g;
    } else {
      var f := g[a + 1..];
      assert AllDigits(f) by {
        assert forall m :: 0 <= m < |f| ==> f[m] == g[a + 1 + m];
      }
      DigitsBelowPow10(f);
      FractionBelowOne(DigitsValue(f) as real, Pow10(|f|) as real);
    }
  }

  lemma FractionBelowOne(q: real, p: real)
    requires 0.0 <= q < p
    ensures q / p < 1.0
  {
  }

  // ---------------------------------------------------------------------
  // Fixed-point rendering
  // ---------------------------------------------------------------------

  /** Rounding to the nearest integer, ties to the even one (how Python
      rounds the exact value it formats). */
  function RoundHalfEven(y: real): (n: int)
    ensures -0.5 <= (n as real) - y <= 0.5
    ensures (n as real) - y == 0.5 || (n as real) - y == -0.5 ==> n % 2 == 0
  {
    var f := y.Floor;
    var frac := y - f as real;
    if frac < 0.5 then f
    else if frac > 0.5 then f + 1
    else if f % 2 == 0 then f
    else f + 1
  }

  /** `format(x, '.2f')` of a non-negative exact value. */
  function UnsignedFixed2(x: real): string
    requires x >= 0.0
  {
    var n := RoundHalfEven(100.0 * x);
    assert n >= 0;
    NatToDigits(n / 100) + "." + [DigitChar((n % 100) / 10), DigitChar(n % 10)]
  }

  /** `format(x, '.2f')`, i.e. the `{x:.2f}` of an f-string, of an exact
      value; a negative value that rounds to zero keeps its sign, as in
      Python. */
  function FormatFixed2(x: real): (r: string)
    ensures |r| >= 4 && r[|r| - 3] == '.' && IsDigit(r[|r| - 2]) && IsDigit(r[|r| - 1])
    ensures r[0] == '-' <==> x < 0.0
  {
    if x < 0.0 then "-" + UnsignedFixed2(-x) else UnsignedFixed2(x)
  }

  /** The digits of `q`, a point and two more digits spell the value
      `q + (10 * d1 + d2) / 100`. */
  lemma TwoPlaceLiteralValue(q: nat, d1: nat, d2: nat)
    requires d1 < 10 && d2 < 10
    ensures IsDecimalLiteral(NatToDigits(q) + "." + [DigitChar(d1), DigitChar(d2)])
    ensures DecimalValue(NatToDigits(q) + "." + [DigitChar(d1), DigitChar(d2)])
            == (q as real) + ((10 * d1 + d2) as real) / 100.0
  {
    var t := NatToDigits(q);
    var tail := [DigitChar(d1), DigitChar(d2)];
    var r := t + "." + tail;
    assert r[|t|] == '.';
    assert forall k :: 0 <= k < |t| ==> r[k] == t[k];
    assert IsDecimalLiteral(r);
    DigitRunUnique(r, 0, |t|);
    assert r[..|t|] == t;
    assert r[|t| + 1..] == tail;
    DigitsRoundTrip(q);
    TwoDigitsValue(d1, d2);
  }

  lemma TwoDigitsValue(d1: nat, d2: nat)
    requires d1 < 10 && d2 < 10
    ensures FractionValue([DigitChar(d1), DigitChar(d2)]) == ((10 * d1 + d2) as real) / 100.0
  {
    var tail := [DigitChar(d1), DigitChar(d2)];
    assert tail[..1] == [DigitChar(d1)];
    assert [DigitChar(d1)][..0] == [];
    assert DigitsValue([DigitChar(d1)]) == d1;
    assert DigitsValue(tail) == 10 * d1 + d2;
    assert Pow10(2) == 100;
  }

  /** The two-decimal rendering of a non-negative value is a decimal literal
      with exactly two digits after the point; it reads back as the value
      rounded half-to-even to hundredths, hence to within half a hundredth
      of the value. */
  lemma FormatFixed2ReadsBack(x: real)
    requires x >= 0.0
    ensures IsDecimalLiteral(FormatFixed2(x))
    ensures var r := FormatFixed2(x); |r| >= 4 && r[|r| - 3] == '.'
    ensures DecimalValue(FormatFixed2(x)) == (RoundHalfEven(100.0 * x) as real) / 100.0
    ensures -0.005 <= DecimalValue(FormatFixed2(x)) - x <= 0.005
  {
    var n := RoundHalfEven(100.0 * x);
    assert n >= 0;
    var q, d1, d2 := n / 100, (n % 100) / 10, n % 10;
    TwoPlaceLiteralValue(q, d1, d2);
    assert FormatFixed2(x) == NatToDigits(q) + "." + [DigitChar(d1), DigitChar(d2)];
    HundredthsSplit(n);
    WithinHalfHundredth(n, x);
  }

  /** A negative value renders as a minus sign followed by the rendering of
      its magnitude, which `FormatFixed2ReadsBack` describes. */
  lemma FormatFixed2Negative(x: real)
    requires x < 0.0
    ensures FormatFixed2(x) == "-" + FormatFixed2(-x)
  {
    assert FormatFixed2(-x) == UnsignedFixed2(-x);
  }

  /** Splitting a count of hundredths into whole units and two digits. */
  lemma HundredthsSplit(n: nat)
    ensures 10 * ((n % 100) / 10) + n % 10 == n % 100
    ensures ((n / 100) as real) + ((10 * ((n % 100) / 10) + n % 10) as real) / 100.0 == (n as real) / 100.0
  {
    var q, m := n / 100, n % 100;
    assert n == 100 * q + m;
    assert m == 10 * (m / 10) + m % 10;
    assert n % 10 == m % 10 by {
      assert n == 10 * (10 * q + m / 10) + m % 10;
    }
    assert (n as real) == 100.0 * (q as real) + (m as real);
  }

  lemma WithinHalfHundredth(n: int, x: real)
    requires -0.5 <= (n as real) - 100.0 * x <= 0.5
    ensures -0.005 <= (n as real) / 100.0 - x <= 0.005
  {
  }

  /** Blank input for `not s.strip()`: nothing but whitespace. */
  predicate IsBlank(s: string) {
    forall k :: 0 <= k < |s| ==> IsSpace(s[k])
  }

  function TrimStart(s: string): (r: string)
    ensures |r| > 0 ==> !IsSpace(r[0])
  {
    if |s| > 0 && IsSpace(s[0]) then TrimStart(s[1..]) else s
  }

  function TrimEnd(s: string): (r: string)
    ensures |r| <= |s| && r == s[..|r|]
    ensures |r| > 0 ==> !IsSpace(r[|r| - 1])
  {
    if |s| > 0 && IsSpace(s[|s| - 1]) then TrimEnd(s[..|s| - 1]) else s
  }

  /** `str.strip()` with no argument. */
  function Strip(s: string): (r: string)
    ensures |r| > 0 ==> !IsSpace(r[0]) && !IsSpace(r[|r| - 1])
  {
    TrimEnd(TrimStart(s))
  }

  lemma {:induction false} TrimStartEmpty(s: string)
    ensures TrimStart(s) == "" <==> IsBlank(s)
  {
    if |s| > 0 && IsSpace(s[0]) {
      TrimStartEmpty(s[1..]);
      assert IsBlank(s) <==> IsBlank(s[1..]) by {
        if IsBlank(s[1..]) {
          forall k | 0 <= k < |s| ensures IsSpace(s[k]) {
            if k > 0 { assert s[k] == s[1..][k - 1]; }
          }
        }
      }
    }
  }

  lemma {:induction false} TrimEndEmpty(s: string)
    ensures TrimEnd(s) == "" <==> IsBlank(s)
  {
    if |s| > 0 && IsSpace(s[|s| - 1]) {
      TrimEndEmpty(s[..|s| - 1]);
      assert IsBlank(s) <==> IsBlank(s[..|s| - 1]) by {
        if IsBlank(s[..|s| - 1]) {
          forall k | 0 <= k < |s| ensures IsSpace(s[k]) {
            if k < |s| - 1 { assert s[k] == s[..|s| - 1][k]; }
          }
        }
      }
    }
  }

  /** `s.strip()` is empty exactly when `s` is blank. */
  lemma StripEmptyIffBlank(s: string)
    ensures Strip(s) == "" <==> IsBlank(s)
  {
    var t := TrimStart(s);
    TrimStartEmpty(s);
    TrimEndEmpty(t);
    if t != "" {
      assert !IsBlank(t);
    }
  }

  // ---------------------------------------------------------------------
  // Python's order on str
  // ---------------------------------------------------------------------

  /** Python's `a <= b` on str: lexicographic by code point, a proper
      prefix before its extensions. */
  predicate StrLe(a: string, b: string) {
    |a| == 0 || (|b| > 0 && (a[0] < b[0] || (a[0] == b[0] && StrLe(a[1..], b[1..]))))
  }

  lemma {:induction false} StrLeReflexive(a: string)
    ensures StrLe(a, a)
  {
    if |a| > 0 {
      StrLeReflexive(a[1..]);
    }
  }

  lemma {:induction false} StrLeTotal(a: string, b: string)
    ensures StrLe(a, b) || StrLe(b, a)
  {
    if |a| > 0 && |b| > 0 && a[0] == b[0] {
      StrLeTotal(a[1..], b[1..]);
    }
  }

  lemma {:induction false} StrLeTransitive(a: string, b: string, c: string)
    requires StrLe(a, b) && StrLe(b, c)
    ensures StrLe(a, c)
  {
    if |a| > 0 && a[0] == b[0] && b[0] == c[0] {
      StrLeTransitive(a[1..], b[1..], c[1..]);
    }
  }

  lemma {:induction false} StrLeAntisymmetric(a: string, b: string)
    requires StrLe(a, b) && StrLe(b, a)
    ensures a == b
  {
    if |a| > 0 {
      StrLeAntisymmetric(a[1..], b[1..]);
      assert a == [a[0]] + a[1..];
      assert b == [b[0]] + b[1..];
    }
  }
}
